=== FILE: README.md ===
# ERP front end — a Dafny model of its session, board, project list and detail pages

This project models the client-side logic of a small ERP single-page
application. The application has a sales funnel of *prospects*, shown as a
Kanban board with the columns `LEAD`, `PROPOSAL`, `WON`, `LOSS` and `HOLD`.
Each prospect has at most one delivery *project*, and both carry *subtasks*. The backend
is not modelled. Every HTTP call is a `Remote.Request` that the page sends,
and how the call settled is an explicit `Remote.Outcome` input:

- `Ok` is a 2xx response.
- `Fail` is a network error with no response.
- `HttpStatus(code, message)` is an error response.

The model covers these parts:

- **Session** (`Auth`, `Routes`).
  - The token/user state of the auth provider, and what it mirrors to the
    `Authorization` header and to local storage.
  - Login and logout, and the global 401/403 interceptor.
  - The protected-route guard, and what each route shows.
- **Roles and navigation** (`Roles`, `Layout`).
  - The role arrays written at each call site, and an independent per-role
    capability table.
  - The side menu filtered by role, and the logout button.
- **Prospect board** (`Board`).
  - Columns.
  - The optimistic drag with a blind rollback. Drags still waiting for their
    server response are kept as a list and may settle in any order.
  - The confirmed move to `REAL_LOSS`.
  - The create form.
- **Project list** (`ProjectList`, `ProjectRow`, `Sortable`).
  - Drag-to-reorder with `arrayMove` and the persisted id list.
  - The done table's filter and badge.
  - The row's badge precedence, progress colour, link, and add-subtask
    shortcut.
- **Detail pages** (`ProjectDetail`, `ProspectDetail`, `SubtaskDetail`,
  `SubtaskActions`, `Checkpoints`, `Links`).
  - The checkpoint labels `NEW`/`IFI`/`IFR`/`IFA`/`IFC`/`DONE` and the five
    checkpoint buttons.
  - The overdue flag, and the `is_done` gating of the project page.
  - The add, update and delete subtask handlers.
  - The subtask edit form.
  - Link normalisation.
- **Cross-page compositions** (`App`).

JavaScript details that matter are written out:

- Truthiness: an empty token or link counts as absent.
- `||` falls back on an empty message too.
- `includes(undefined)` is false, so there is no role without a user.
- `find` returns the first match, while `map` updates every match.

Some behaviour of the code is easy to misread; the model follows the code:

- A failed login answered 401 or 403 also passes through the global
  interceptor, so it clears the session (`Auth.Login`).
- The project page's slider sends any value from 0 to 100, not only
  checkpoint values (`ProjectDetail.SliderChange`).
- There is no "toggle project done" control anywhere in the pages; `is_done`
  is read, never written.

## Model

| member | source | states |
|---|---|---|
| Auth.Start | src/context/AuthContext.jsx:7-12 | the provider starts from the stored token and user, loading, with no header set yet |
| Auth.Effects | src/context/AuthContext.jsx:15-32 | after the effects, the header is `Bearer <token>` and the token is stored exactly when the token is truthy; otherwise both are removed; the stored user mirrors the user; loading ends |
| Auth.EffectsIdempotent | src/context/AuthContext.jsx:15-32 | running the effects again changes nothing |
| Auth.RestartRestores | src/context/AuthContext.jsx:7-32 | a reload starts from storage with the same user and, when there was a truthy token, the same token |
| Auth.Logout | src/context/AuthContext.jsx:46-49 | logout clears token and user together and leaves loading alone |
| Auth.LogoutIdempotent | src/context/AuthContext.jsx:46-49 | logging out twice is logging out once |
| Auth.Observe | src/context/AuthContext.jsx:52-68 | every response is passed on unchanged; a 401/403 error response clears the session; anything else leaves it unchanged |
| Auth.Login | src/context/AuthContext.jsx:34-44 | success stores the granted token and user; failure returns the server's non-empty message or `Login failed`; a 401/403 failure also logs out through the interceptor; other failures leave the session unchanged |
| Auth.LoginFailureMessage | src/context/AuthContext.jsx:42 | a failed login always carries a non-empty message |
| Auth.Step | src/context/AuthContext.jsx:23-59 | a logout event clears token and user; a render ends loading without touching them |
| Auth.StepPreservesPaired | src/context/AuthContext.jsx:34-59 | no event separates a token from its user once they are paired |
| Auth.SetsBothPairs | src/context/AuthContext.jsx:37-48 | login, logout and an auth failure each leave token and user paired, from any state |
| Auth.RunPreservesPaired | src/context/AuthContext.jsx:34-68 | every event sequence from a paired session ends paired (by induction) |
| Auth.UnpairedOnlyInitially | src/context/AuthContext.jsx:34-68 | once any login, logout or auth failure has happened, the session is paired from then on |
| Auth.ForbiddenReadLogsOut | src/context/AuthContext.jsx:56-59 | a 403 on any request leaves a signed-in user signed out |
| Routes.Guard | src/App.jsx:14-19 | shows `Initializing` while loading; redirects to `/login` without a truthy token; otherwise shows the children |
| Routes.GuardIgnoresUser | src/App.jsx:14-19 | the guard looks at the token only, never at the user |
| Routes.Resolve | src/App.jsx:26-37 | `/login` is always reachable; every other page waits, redirects to `/login`, or is shown exactly when a token is held and loading is over; the index then redirects to `/dashboard` |
| Routes.LoginOpensLogoutCloses | src/App.jsx:14-37 | after a successful login and a render, any protected page is shown; after logout and a render, it redirects to `/login` |
| Roles.AllowedRoles | src/layouts/MainLayout.jsx:18-24 | each written role array includes Superadmin and holds one to four roles |
| Roles.Permits | src/layouts/MainLayout.jsx:26 | `roles.includes(user?.role)`: nothing is permitted without a user, and Superadmin is permitted everything |
| Roles.PermitsMatchesCapabilities | src/layouts/MainLayout.jsx:18-26 | the role arrays written at the call sites agree, pair by pair, with a per-role capability table |
| Roles.NoUserNoAction | src/layouts/MainLayout.jsx:26 | without a user nothing is permitted |
| Roles.SuperadminAll | src/layouts/MainLayout.jsx:19-23 | Superadmin is permitted every action |
| Roles.DeleteNarrowerThanEditLink | src/pages/ProjectDetail.jsx:117-245 | whoever may delete subtasks may edit the project link; Engineer is the only role that may edit the link but not delete |
| Layout.FilteredNav | src/layouts/MainLayout.jsx:26 | an entry is in the menu exactly when it is in the table and its role list contains the user's role; no user gives an empty menu |
| Layout.FilteredNavKeepsOrder | src/layouts/MainLayout.jsx:26 | filtering distributes over concatenation, so table order is kept |
| Layout.SuperadminMenu | src/layouts/MainLayout.jsx:18-26 | Superadmin sees all five entries in table order |
| Layout.ManagerMenu | src/layouts/MainLayout.jsx:18-26 | Manager sees Dashboard, Prospects, Projects, Project Status |
| Layout.SalesMenu | src/layouts/MainLayout.jsx:18-26 | Sales sees Dashboard, Prospects, Project Status |
| Layout.EngineerMenu | src/layouts/MainLayout.jsx:18-26 | Engineer sees Dashboard, Projects, Project Status |
| Layout.MenuLinks | src/layouts/MainLayout.jsx:40-53 | each rendered link carries its entry's path, which is also its key, and its label, in menu order |
| Layout.PathsIdentifyEntries | src/layouts/MainLayout.jsx:18-24 | no two entries of `navItems` share a path or a label |
| Layout.MenuKeysDistinct | src/layouts/MainLayout.jsx:40-43 | a menu without repeated entries renders links whose keys are distinct |
| Layout.EngineerLinks | src/layouts/MainLayout.jsx:18-53 | an Engineer's side navigation links `/dashboard`, `/projects` and `/project-status` under their labels |
| Layout.RoleOf | src/layouts/MainLayout.jsx:26 | the role is present exactly when a user is, and is that user's role |
| Layout.HandleLogout | src/layouts/MainLayout.jsx:13-16 | the logout button clears the session, navigates to `/login`, and leaves an empty menu |
| Remote.MessageOr | src/context/AuthContext.jsx:42 | the result is the fallback or the server's message; a non-empty server message wins; a non-empty fallback gives a non-empty result |
| Remote.SendThenRefetch | src/pages/ProjectDetail.jsx:78-87 | the request is sent; exactly one of refetch and alert follows, and refetch exactly on success |
| Board.ColumnsAreBoardStates | src/pages/Prospects.jsx:15 | the five columns are the funnel statuses other than `REAL_LOSS` |
| Board.Column | src/pages/Prospects.jsx:222-231 | a prospect is on a column exactly when it is in the list with that status; a column never holds a card more often than the list |
| Board.ColumnKeepsOrder | src/pages/Prospects.jsx:222-231 | a column keeps the list's order: the column of two lists joined is their columns joined |
| Board.ColumnPlacement | src/pages/Prospects.jsx:222-231 | every prospect not in `REAL_LOSS` is on exactly one column, and a `REAL_LOSS` one is on none |
| Board.Find | src/pages/Prospects.jsx:170 | the result is the first prospect with the key, and nothing when no prospect has it |
| Board.WithStatus | src/pages/Prospects.jsx:175-177 | every prospect with the key gets the status, and every other prospect is unchanged |
| Board.DragEnd | src/pages/Prospects.jsx:160-192 | no drop target, an unknown key, or the same status changes nothing; a drop that changes the card's column always applies the target status to the keyed prospects at once, before any answer, and remembers the old status and the target for that drag |
| Board.DragEndChangesOnlyStatus | src/pages/Prospects.jsx:172-177 | a drag changes only the status of cards with the dragged key, and never puts a card into `REAL_LOSS` |
| Board.ConfirmedDragKeepsTarget | src/pages/Prospects.jsx:172-183 | a changing drag whose call succeeds shows the dropped-on status at once and still after the answer, and is settled |
| Board.Complete | src/pages/Prospects.jsx:180-190 | success keeps the list; failure writes the remembered status back on every prospect with the key, whatever happened since; the drag is settled either way |
| Board.WithStatusRestores | src/pages/Prospects.jsx:175-189 | writing a prospect's own status back over a change restores the list |
| Board.FailedDragRestores | src/pages/Prospects.jsx:172-190 | when `no_project` values are distinct, a drag that changed the board and then failed leaves the board exactly as before it |
| Board.DragThereAndBack | src/pages/Prospects.jsx:172-177 | when `no_project` values are distinct, dragging a card to a column and back to its own restores the prospect list |
| Board.StaleRollbackOverwritesNewerDrag | src/pages/Prospects.jsx:174-189 | LEAD→PROPOSAL then →WON, where the second succeeds and the first fails, ends in LEAD, although the server last accepted WON |
| Board.RollbackIgnoresNewerDrag | src/pages/Prospects.jsx:187-189 | a failed completion writes its remembered status regardless of the current one |
| Board.RealLossOffered | src/pages/Prospects.jsx:65 | the Real Loss menu is offered only on a card that is on the board and not already `REAL_LOSS` |
| Board.MoveToRealLoss | src/pages/Prospects.jsx:194-204 | offered only on `LOSS` cards; nothing without confirmation; otherwise `REAL_LOSS` is sent with no local change, then refetch on success or alert on failure |
| Board.RealLossLeavesBoard | src/pages/Prospects.jsx:222-224 | after the refetch, a `REAL_LOSS` prospect is on no column |
| Board.EditForm | src/pages/Prospects.jsx:256-259 | typing into an input sets exactly that field to the typed value; the other fields and the status stay |
| Board.EditAll | src/pages/Prospects.jsx:256-259 | after any sequence of typing, each input shows the value last typed into it (or its start value), and the status is kept |
| Board.LastEditWins | src/pages/Prospects.jsx:256-259 | the input typed into last holds the value typed last |
| Board.HandleCreate | src/pages/Prospects.jsx:144-154 | an unfilled form is not submitted; a filled one is posted as typed; success closes, refetches and resets to a blank `LEAD` form; failure alerts and keeps the form |
| Board.CreateOffered | src/pages/Prospects.jsx:213 | the New Prospect button is offered exactly to Sales, Manager and Superadmin |
| Board.CreatedAsLead | src/pages/Prospects.jsx:121-150 | whatever is typed, a prospect is created as `LEAD`, and the form stays `LEAD` after any outcome |
| Sortable.ArrayMove | src/pages/Projects.jsx:57 | the moved element lands at the target index; the length and multiset are kept; removing it again gives the list without the element at its old index |
| Sortable.RemoveInsert | src/pages/Projects.jsx:57 | removal undoes insertion at the same index |
| Sortable.ArrayMoveShift | src/pages/Projects.jsx:57 | outside the moved span nothing moves; inside it every element shifts by one toward the vacated index |
| Sortable.ArrayMoveSame | src/pages/Projects.jsx:52-57 | moving to the same index is the identity |
| Entities.Ids | src/pages/Projects.jsx:61 | the id list has one entry per project, the i-th being the i-th project's id, so the persisted order is the list's order |
| Entities.IndexOfId | src/pages/Projects.jsx:54-55 | the result is the first index holding the id |
| ProjectList.HandleReorder | src/pages/Projects.jsx:49-69 | no target or dropping on itself changes nothing and sends nothing; otherwise the dragged row moves to the target row's index, the full new id list is sent, and a failure is only logged; the rows are a permutation of the old ones |
| ProjectList.ReorderIgnoresPersistence | src/pages/Projects.jsx:63-66 | the new order and the request do not depend on whether saving succeeds: there is no rollback |
| ProjectList.ReorderExample | src/pages/Projects.jsx:54-63 | rows 1,2,3 with 1 dropped on 3 become 2,3,1, and `["2","3","1"]` is sent |
| ProjectList.ApplyDoneFilter | src/pages/Projects.jsx:146-152 | All shows every row; Real Loss shows exactly the rows of `REAL_LOSS` prospects; Done shows exactly the others; no row appears more often than in the list |
| ProjectList.DoneFilterKeepsOrder | src/pages/Projects.jsx:146-152 | every filter keeps the list's order: filtering two lists joined is joining their filtered lists |
| ProjectList.DoneFiltersPartition | src/pages/Projects.jsx:146-152 | Done and Real Loss are disjoint and together hold every row exactly as often as the list does |
| ProjectList.DoneViewBadge | src/pages/Projects.jsx:169-173 | the done table shows `REAL LOSS` exactly for `REAL_LOSS` prospects and `DONE` for all others |
| ProjectList.FilterMatchesBadge | src/pages/Projects.jsx:146-173 | each filter shows only rows with its own badge; on done projects the done table and the row component agree |
| ProjectRow.RowBadge | src/components/ui/SortableProjectRow.jsx:50-56 | `REAL LOSS` exactly for `REAL_LOSS` prospects, otherwise `DONE` exactly when done, otherwise `IN PROGRESS` |
| ProjectRow.RealLossOutranksDone | src/components/ui/SortableProjectRow.jsx:50-53 | a done project of a `REAL_LOSS` prospect reads `REAL LOSS` |
| ProjectRow.BarColourOf | src/components/ui/SortableProjectRow.jsx:67 | the bar is green exactly at 100 |
| ProjectRow.RowClick | src/components/ui/SortableProjectRow.jsx:30 | a row click opens the project page without extra state |
| ProjectRow.AddSubtaskShortcut | src/components/ui/SortableProjectRow.jsx:88-99 | the plus button exists exactly for projects that are not done, and opens their page asking for the add form |
| ProjectRow.RowLink | src/components/ui/SortableProjectRow.jsx:76-87 | the link icon exists exactly for a non-empty link; its target starts with `http`; a link starting with `http` is kept as stored, any other gets `https://` |
| Links.Normalise | src/components/ui/SortableProjectRow.jsx:78 | the result starts with `http`; a link starting with `http` is kept; any other link gets `https://` in front |
| Links.NormaliseIdempotent | src/pages/ProjectDetail.jsx:142 | normalising twice is normalising once |
| Links.Href | src/pages/ProjectDetail.jsx:140-152 | a link target exists exactly for a non-empty link; it starts with `http`; a link starting with `http` is kept as stored, any other gets `https://` |
| Links.HostStartingWithHttpKeepsNoScheme | src/components/ui/SortableProjectRow.jsx:78 | `httpbin.org` is kept as it is, without a scheme, and a link cell points at it as written; the corrected rule would give `https://httpbin.org` |
| Links.NormaliseScheme | src/components/ui/SortableProjectRow.jsx:78 | corrected rule: the result always has a scheme; a link with one is kept; any other gets `https://` |
| Links.NormaliseSchemeAgrees | src/components/ui/SortableProjectRow.jsx:78 | the corrected rule is idempotent, and agrees with the written one on every link that has a scheme or does not start with `http` |
| Checkpoints.LabelOf | src/pages/ProspectDetail.jsx:188-192 | a non-`NEW` label names exactly the value; `NEW` exactly when the value is not 20, 40, 60, 80 or 100 |
| Checkpoints.LabelValueRoundTrip | src/pages/SubtaskDetail.jsx:132-136 | label and value are inverse on the six checkpoints, and only there |
| Checkpoints.ChoicesAreCheckpoints | src/pages/ProspectDetail.jsx:197-203 | each button's value carries its label; the values rise strictly; none is `NEW` |
| Checkpoints.SelectableValues | src/pages/SubtaskDetail.jsx:142-148 | a value is selectable by a button exactly when it is a checkpoint value other than 0 |
| Checkpoints.CompleteIffDone | src/pages/ProspectDetail.jsx:165-192 | the done icon's test agrees with the `DONE` label |
| Checkpoints.IsOverdue | src/pages/ProjectDetail.jsx:206 | an overdue subtask is never complete, and one whose deadline has not passed is never overdue |
| Checkpoints.OverdueNeedsPastAndUnfinished | src/pages/ProjectDetail.jsx:206 | an overdue subtask is unfinished and past its deadline; one whose deadline has not passed is never overdue |
| Checkpoints.OverdueExamples | src/pages/ProjectDetail.jsx:206 | a day late at 50% is overdue; at 100% it is not; a day early it is not |
| SubtaskActions.UpdateProgress | src/pages/ProjectDetail.jsx:78-87 | the value is sent; refetch on success, alert on failure; no local change |
| SubtaskActions.DeleteOfferedTo | src/pages/ProspectDetail.jsx:220 | the delete button is for Manager and Superadmin only |
| SubtaskActions.DeleteTask | src/pages/ProjectDetail.jsx:89-97 | nothing without confirmation; otherwise the delete is sent, then refetch or alert |
| SubtaskActions.DeclinedDeleteSendsNothing | src/pages/ProspectDetail.jsx:68-69 | a declined confirmation sends nothing, whatever the server would answer |
| SubtaskActions.AddTask | src/pages/ProjectDetail.jsx:63-76 | without a name and a deadline nothing is sent; otherwise the form is posted under its parent; success clears and closes it and refetches; failure keeps it and alerts the server's message or `Error adding task` |
| SubtaskActions.AddTaskRetry | src/pages/ProspectDetail.jsx:42-55 | a failed submit leaves a form that resubmits the same request; a successful one leaves a blank, unsubmittable form |
| SubtaskActions.CardOf | src/pages/ProjectDetail.jsx:204-254 | done icon and green bar exactly at 100; overdue styling from the deadline; `No description` replaces a missing or empty description; the link follows the written prefix test |
| SubtaskActions.CardNeverDoneAndOverdue | src/pages/ProspectDetail.jsx:153-165 | no card is both done and overdue; the done icon goes with the `DONE` label |
| ProjectDetail.PanelOf | src/pages/ProjectDetail.jsx:117-245 | `COMPLETED` exactly when done; add button and slider exactly when not done; link edit for Manager, Superadmin and Engineer; delete for Manager and Superadmin; the link follows the written prefix test |
| ProjectDetail.PanelFollowsCapabilities | src/pages/ProjectDetail.jsx:117-245 | the page's gates agree with the capability table, and a done project offers neither add button nor slider to anyone |
| ProjectDetail.SliderChange | src/pages/ProjectDetail.jsx:236-244 | a done project sends nothing; otherwise any value from 0 to 100 is sent, then refetch or alert |
| ProjectDetail.SliderLeavesCheckpoints | src/pages/ProjectDetail.jsx:236-244 | the slider can store 50, which no checkpoint names and which the other pages label `NEW` |
| ProjectDetail.OpensAddForm | src/pages/ProjectDetail.jsx:42-50 | the page opens with the add form exactly when the arrival carries `openAddSubtask`, whatever the project |
| ProjectDetail.ShortcutOpensAddForm | src/pages/ProjectDetail.jsx:43-51 | the row's plus button lands on that project's page with the add form open; a plain row click does not open it |
| ProjectDetail.ArrivalIgnoresDone | src/pages/ProjectDetail.jsx:43-51 | the arrival state opens the form on a done project, where the page offers no button for it |
| ProjectDetail.LinkDraft | src/pages/ProjectDetail.jsx:33 | the link input starts from the stored link, or empty |
| ProjectDetail.UpdateLink | src/pages/ProjectDetail.jsx:53-61 | the draft is sent as typed; success closes the editor and refetches; failure alerts and keeps it open |
| ProjectDetail.LinkSaveRoundTrip | src/pages/ProjectDetail.jsx:53-57 | an untouched draft resends the stored link; a stored non-empty draft is shown through the written prefix test, so one starting with `http` is shown exactly as typed; an empty one is not shown |
| ProjectDetail.AddProjectTask | src/pages/ProjectDetail.jsx:63-69 | a submittable form is posted under the project's id |
| ProspectDetail.Highlighted | src/pages/ProspectDetail.jsx:204-212 | button i is lit exactly when its value equals the progress |
| ProspectDetail.HighlightMatchesLabel | src/pages/ProspectDetail.jsx:188-212 | a button is lit exactly when the label names it; at most one is lit; none is lit under `NEW` |
| ProspectDetail.ChooseCheckpoint | src/pages/ProspectDetail.jsx:197-206 | a button sends its checkpoint value for that subtask, with no `is_done` gate, then refetch or alert |
| ProspectDetail.ChosenCheckpointShows | src/pages/ProspectDetail.jsx:188-212 | after the refetch, the label names the chosen checkpoint and exactly its button is lit |
| ProspectDetail.ProjectShortcut | src/pages/ProspectDetail.jsx:108-119 | the project button exists exactly when the prospect has a project, and leads to it |
| ProspectDetail.SubtaskPath | src/pages/ProspectDetail.jsx:159 | a subtask card routes under the linked project, or under `prospect` when there is none |
| ProspectDetail.AddProspectTask | src/pages/ProspectDetail.jsx:42-48 | a submittable form is posted under the prospect's `no_project` |
| SubtaskDetail.MinuteOf | src/pages/SubtaskDetail.jsx:34 | the deadline is rounded down to a whole minute |
| SubtaskDetail.MinuteOfIdempotent | src/pages/SubtaskDetail.jsx:34 | rounding twice is rounding once |
| SubtaskDetail.InitForm | src/pages/SubtaskDetail.jsx:31-37 | name and progress are copied; a missing description or link becomes empty; the deadline is present and rounded to the minute |
| SubtaskDetail.SelectCheckpoint | src/pages/SubtaskDetail.jsx:152 | a button sets the progress to its value, whose label is its checkpoint, and changes nothing else |
| SubtaskDetail.SetDeadline | src/pages/SubtaskDetail.jsx:180-185 | the deadline input changes only the deadline, and may clear it, since it is not `required` |
| SubtaskDetail.Submit | src/pages/SubtaskDetail.jsx:49-58 | the whole form is sent for this subtask with no field check, so a cleared deadline is sent empty; then refetch or alert |
| SubtaskDetail.ClearedDeadlineIsSent | src/pages/SubtaskDetail.jsx:180-185 | clearing the deadline and saving sends an empty deadline with every other field unchanged |
| SubtaskDetail.SaveReloadRoundTrip | src/pages/SubtaskDetail.jsx:28-56 | a successful save refetches; if the server returns every sent field unchanged (the hypothesis `EchoesForm`), a form with a deadline on a whole minute reloads exactly as sent, and an unedited loaded form reloads as the same form |
| SubtaskDetail.ChooseThenSave | src/pages/SubtaskDetail.jsx:31-52 | choosing a checkpoint and saving sends the loaded subtask with only the progress changed |
| SubtaskDetail.PanelOf | src/pages/SubtaskDetail.jsx:88-188 | `COMPLETED` and `OVERDUE` read the saved subtask; the label and bar of the form read the form; the link follows the written prefix test |
| SubtaskDetail.BadgesIgnoreForm | src/pages/SubtaskDetail.jsx:186-188 | until a refetch, form edits never move the badge, the warning or the link |
| SubtaskDetail.DoneSelectedStillOverdue | src/pages/SubtaskDetail.jsx:128-188 | after picking `DONE` on an overdue subtask, the form reads `DONE` while the page still warns `OVERDUE` without `COMPLETED` |
| SubtaskDetail.BackPath | src/pages/SubtaskDetail.jsx:67-71 | "Back to Project" leads to the project page whose id is exactly the route's project id |
| App.ExpiredSessionDuringDrag | src/pages/Prospects.jsx:180-190 | when `no_project` values are distinct, a drag answered 401/403 is rolled back by the board and signs the user out, so any protected page redirects to `/login` |
| App.ProspectSubtaskBackLeadsToPlaceholder | src/pages/ProspectDetail.jsx:159 | a subtask of a prospect without a project opens under `prospect`, and "Back to Project" leads to `/projects/prospect`, not back to the prospect |

## Left out

- Board.FailedDragRestores: assumes distinct `no_project` values. When two prospects share one but not a status, the rollback at src/pages/Prospects.jsx:187-189 writes the status that `find` took from the first onto both, so the board is not restored; `Board.WithStatus` states that write for every input.
- Board.DragThereAndBack: assumes distinct `no_project` values, for the same reason.
- App.ExpiredSessionDuringDrag: assumes distinct `no_project` values, for the same reason.
- Rendering, styling, animation and icons are left out; only what a page shows or offers is modelled.
- Dates are integers in milliseconds. Parsing, `formatDistanceToNow`, `toLocaleDateString` and time zones are left out.
- The clock is left out: `now` is a parameter of every overdue test.
- The backend is left out: aggregation of project progress and `is_done`, creating a project when a prospect is won or written off, and persisting the order all happen on the server. Each call is a request plus an explicit outcome.
- Fetch-on-mount and refetch are left out as I/O. The model records that a refetch happens and treats the refetched list as an input.
- Loading spinners are left out, as is a page stuck on "Loading..." after a failed fetch.
- The login form page, the dashboard page and the admin placeholder are left out; they are not part of the modelled logic.
- The drag overlay (`activeId`) is left out, since it is display only.
- Browser `confirm` is left out; its answer is a boolean parameter.
- Browser `alert` texts are left out except where a contract names them. `Board.MoveToRealLoss` and `ProjectDetail.UpdateLink` record only that an alert is shown, not its text built from `error.message`.
- Remote.Outcome does not carry a JavaScript error object, so `error.message` is left out.
- SubtaskActions.UpdateProgress: the slider sends `e.target.value`, a string; the model sends the number, on the assumption that the server stores the number the string spells.
- SubtaskDetail.InitForm: does not model that the minute-precision ISO string is later read without a time-zone offset; only the rounding to the minute is kept.
- The subtask page's `isEditing` flag is left out: it is set to false after a save and never set to true, so nothing reads it.
- ProjectList.HandleReorder: a missing drop target is modelled as no change. The source throws there, before any state change, so the visible behaviour is the same.
- SubtaskDetail.SaveReloadRoundTrip: holds only under the hypothesis `SubtaskDetail.EchoesForm`, that the server returns every sent field unchanged and reads the zone-less deadline string back as the same instant; the server is not modelled, so this is not proved of it. A save with a cleared deadline is outside the hypothesis: what the server does with an empty deadline is not modelled.
- Concurrency among detail-page handlers is left out. Only the board's drags are modelled as settling in any order, because only they change local state when the response arrives (the rollback); the project reorder changes it before the request and never again.

## Findings

| source | as written | input that shows it | evidently intended | confidence | as-written member | corrected member |
|---|---|---|---|---|---|---|
| src/components/ui/SortableProjectRow.jsx:78 | a link is kept unchanged when it starts with the four letters `http`; the same test is repeated in Projects.jsx line 193, ProjectDetail.jsx lines 142 and 223, and SubtaskDetail.jsx line 107 | `httpbin.org` is kept as `httpbin.org`, which the browser opens as a relative path | keep only links that already carry `http://` or `https://`, and prefix everything else with `https://` | not executed | Links.HostStartingWithHttpKeepsNoScheme | Links.NormaliseScheme |

=== FILE: app.dfy ===
/** How the pieces meet across pages: the global 401/403 logout acting on a
    board drag, and the round trip from a prospect's subtask and back. */
module App {
  import opened Optional
  import opened Entities
  import opened Remote
  import Auth
  import Routes
  import Board
  import ProspectDetail
  import SubtaskDetail

  /** A drag whose status update is answered 401 or 403: the board's own
      handler rolls the card back, and the interceptor ends the session, so
      the next render of any protected page sends the user to the login
      page. */
  lemma ExpiredSessionDuringDrag(s: Auth.Session, b: Board.BoardState, d: Board.Drag, o: Outcome, page: Routes.Page)
    requires Board.OnBoard(d) && Board.UniqueKeys(b.prospects) && Board.Moves(b.prospects, d)
    requires IsAuthFailure(o) && !s.loading && page != Routes.LoginPage
    ensures Board.Complete(Board.DragEnd(b, d), |b.inFlight|, o) == b
    ensures Routes.Resolve(Auth.Observe(s, o).session, page) == Routes.Navigate("/login")
  {
    Board.FailedDragRestores(b, d, o);
  }

  /** A subtask of a prospect without a project opens under the placeholder
      project id `prospect`, and its "Back to Project" button then leads to
      the project page for that id rather than back to the prospect. */
  lemma ProspectSubtaskBackLeadsToPlaceholder(sheet: ProspectDetail.Sheet, taskId: string)
    requires sheet.linkedProject.None?
    ensures ProspectDetail.SubtaskPath(sheet, taskId) == "/projects/prospect/subtasks/" + taskId
    ensures SubtaskDetail.BackPath("prospect") == "/projects/prospect"
    ensures SubtaskDetail.BackPath("prospect") != "/prospects/" + sheet.prospect.noProject
  {
    var back := SubtaskDetail.BackPath("prospect");
    assert back[2] == 'r' && ("/prospects/" + sheet.prospect.noProject)[2] == 'r';
    assert back[9] == '/' && ("/prospects/" + sheet.prospect.noProject)[9] == 's';
  }
}

=== FILE: auth.dfy ===
/** The authentication provider: the token/user session, its mirror in the
    HTTP client's default header and in browser storage, `login`, `logout`
    and the global response interceptor. Storage and the HTTP client are
    modelled as plain values the provider's effects write. */
module Auth {
  import opened Optional
  import opened Remote
  import opened Roles

  datatype User = User(id: string, username: string, role: Role)

  /** Body of a successful login response. */
  datatype Grant = Grant(token: string, user: User)

  /** Browser storage under the keys `token` and `user`; the stored user is
      held already decoded (its JSON encoding is not modelled). */
  datatype Storage = Storage(token: Option<string>, user: Option<User>)

  /** The provider's React state. */
  datatype Session = Session(token: Option<string>, user: Option<User>, loading: bool)

  /** The session together with the outside state its effects write: the
      default `Authorization` header and storage. */
  datatype Provider = Provider(session: Session, header: Option<string>, storage: Storage)

  /** `if (token)` in JavaScript: absent and empty tokens are both falsy. */
  predicate HasToken(t: Option<string>) {
    t.Some? && t.value != ""
  }

  /** Token and user are either both present or both absent. */
  predicate Paired(s: Session) {
    s.token.Some? <==> s.user.Some?
  }

  /** First render: token and user are read from storage independently and
      the provider is loading; nothing has set the header yet. */
  function Start(stored: Storage): (p: Provider)
    ensures p.session.token == stored.token && p.session.user == stored.user
    ensures p.session.loading && p.header.None? && p.storage == stored
  {
    Provider(Session(stored.token, stored.user, true), None, stored)
  }

  /** The two effects that run after a render: a present token becomes the
      `Bearer` header and is stored, an absent one removes both; the user is
      stored or removed the same way; loading ends. */
  function Effects(p: Provider): (q: Provider)
    ensures q.session.token == p.session.token && q.session.user == p.session.user
    ensures !q.session.loading
    ensures HasToken(p.session.token) ==>
      q.header == Some("Bearer " + p.session.token.value) && q.storage.token == p.session.token
    ensures !HasToken(p.session.token) ==> q.header.None? && q.storage.token.None?
    ensures q.storage.user == p.session.user
  {
    var token := p.session.token;
    var header := if HasToken(token) then Some("Bearer " + token.value) else None;
    var storedToken := if HasToken(token) then token else None;
    Provider(p.session.(loading := false), header, Storage(storedToken, p.session.user))
  }

  /** Running the effects again changes nothing. */
  lemma EffectsIdempotent(p: Provider)
    ensures Effects(Effects(p)) == Effects(p)
  {
  }

  /** A restart reads back what the effects stored: the user always, the
      token whenever it was a usable one (an empty token comes back absent,
      which every check in the source treats the same). */
  lemma RestartRestores(p: Provider)
    ensures Start(Effects(p).storage).session.user == p.session.user
    ensures HasToken(Start(Effects(p).storage).session.token) <==> HasToken(p.session.token)
    ensures HasToken(p.session.token) ==> Start(Effects(p).storage).session.token == p.session.token
  {
  }

  /** `logout`: both token and user become absent. */
  function Logout(s: Session): (r: Session)
    ensures r.token.None? && r.user.None? && r.loading == s.loading
    ensures Paired(r)
  {
    s.(token := None, user := None)
  }

  /** Logging out of an empty session is a no-op. */
  lemma LogoutIdempotent(s: Session)
    ensures s.token.None? && s.user.None? ==> Logout(s) == s
    ensures Logout(Logout(s)) == Logout(s)
  {
  }

  /** What the interceptor hands on: the session after it ran and the outcome
      the caller then sees. */
  datatype Intercepted = Intercepted(session: Session, passed: Outcome)

  /** The global response interceptor, run on every response of every call:
      a 401 or 403 error response logs out, whatever the request was; any
      other outcome leaves the session alone. Successes pass through and
      errors are re-rejected, so the caller sees the same outcome. */
  function Observe(s: Session, o: Outcome): (r: Intercepted)
    ensures r.passed == o
    ensures IsAuthFailure(o) ==> r.session.token.None? && r.session.user.None?
    ensures !IsAuthFailure(o) ==> r.session == s
    ensures r.session.loading == s.loading
  {
    Intercepted(if IsAuthFailure(o) then Logout(s) else s, o)
  }

  /** Result returned to the login form. */
  datatype LoginResult = LoginResult(success: bool, message: Option<string>)

  /** `login`: the POST's response first passes the interceptor, then the
      handler sets token and user from a success, or reports the server's
      message (default `Login failed`) and sets nothing. A 401/403 rejection
      therefore still clears the session, through the interceptor. */
  function Login(s: Session, o: Outcome, g: Grant): (r: (Session, LoginResult))
    ensures o.Ok? ==> r.0.token == Some(g.token) && r.0.user == Some(g.user) && r.1.success
    ensures o.Ok? ==> r.1.message.None? && r.0.loading == s.loading
    ensures !o.Ok? ==> !r.1.success && r.1.message == Some(MessageOr(o, "Login failed"))
    ensures !o.Ok? && !IsAuthFailure(o) ==> r.0 == s
    ensures IsAuthFailure(o) ==> r.0 == Logout(s)
  {
    var after := Observe(s, o).session;
    if o.Ok? then
      (after.(token := Some(g.token), user := Some(g.user)), LoginResult(true, None))
    else
      (after, LoginResult(false, Some(MessageOr(o, "Login failed"))))
  }

  /** Login's failure message is never empty. */
  lemma LoginFailureMessage(s: Session, o: Outcome, g: Grant)
    requires !o.Ok?
    ensures Login(s, o, g).1.message.Some? && Login(s, o, g).1.message.value != ""
  {
  }

  /** Events the provider reacts to. `Rendered` runs the effects, which end
      the loading phase. */
  datatype Event =
    | LoginEvent(outcome: Outcome, grant: Grant)
    | LogoutEvent
    | ResponseEvent(outcome: Outcome)
    | Rendered

  function Step(s: Session, e: Event): (r: Session)
    ensures e.LogoutEvent? ==> r.token.None? && r.user.None?
    ensures e.Rendered? ==> !r.loading && r.token == s.token && r.user == s.user
  {
    match e
    case LoginEvent(o, g) => Login(s, o, g).0
    case LogoutEvent => Logout(s)
    case ResponseEvent(o) => Observe(s, o).session
    case Rendered => s.(loading := false)
  }

  function Run(s: Session, es: seq<Event>): Session
    decreases |es|
  {
    if |es| == 0 then s else Run(Step(s, es[0]), es[1..])
  }

  /** Every event keeps token and user paired: login and logout always set
      both together. */
  lemma StepPreservesPaired(s: Session, e: Event)
    requires Paired(s)
    ensures Paired(Step(s, e))
  {
  }

  /** Events that set token and user together, from whatever state. */
  predicate SetsBoth(e: Event) {
    || e.LogoutEvent?
    || (e.LoginEvent? && (e.outcome.Ok? || IsAuthFailure(e.outcome)))
    || (e.ResponseEvent? && IsAuthFailure(e.outcome))
  }

  lemma SetsBothPairs(s: Session, e: Event)
    requires SetsBoth(e)
    ensures Paired(Step(s, e))
  {
  }

  lemma {:induction false} RunPreservesPaired(s: Session, es: seq<Event>)
    requires Paired(s)
    ensures Paired(Run(s, es))
    decreases |es|
  {
    if |es| > 0 {
      StepPreservesPaired(s, es[0]);
      RunPreservesPaired(Step(s, es[0]), es[1..]);
    }
  }

  /** A token without a user (or the reverse) can only be the state read from
      storage at start-up: once any event that sets both has happened, the
      session is paired for good. */
  lemma {:induction false} UnpairedOnlyInitially(s: Session, es: seq<Event>, i: nat)
    requires i < |es| && SetsBoth(es[i])
    ensures Paired(Run(s, es))
    decreases |es|
  {
    if i == 0 {
      SetsBothPairs(s, es[0]);
      RunPreservesPaired(Step(s, es[0]), es[1..]);
    } else {
      UnpairedOnlyInitially(Step(s, es[0]), es[1..], i - 1);
    }
  }

  /** Concrete case: an unrelated read answered with 403 clears a session. */
  lemma ForbiddenReadLogsOut(u: User)
    ensures Run(Session(Some("t"), Some(u), false), [ResponseEvent(HttpStatus(403, None))])
         == Session(None, None, false)
  {
  }
}

=== FILE: board.dfy ===
/** The prospect Kanban board: its columns, the drag handler with optimistic
    apply and rollback, the explicit move to Real Loss and the create form.
    Remote completions are events applied in any order: each drag leaves an
    in-flight record that a later completion consumes. */
module Board {
  import opened Optional
  import opened Entities
  import opened Remote
  import opened Roles
  import opened Seqs
  import Sortable

  /** `STATUSES`: the columns, which are also the only droppable ids. */
  const Columns: seq<Status> := [LEAD, PROPOSAL, WON, LOSS, HOLD]

  lemma ColumnsAreBoardStates(st: Status)
    ensures st in Columns <==> st != REAL_LOSS
  {
  }

  function HasStatus(st: Status): Prospect -> bool {
    (p: Prospect) => p.status == st
  }

  /** The cards of one column, in list order. */
  function Column(ps: seq<Prospect>, st: Status): (r: seq<Prospect>)
    ensures forall p :: p in r <==> p in ps && p.status == st
    ensures multiset(r) <= multiset(ps)
  {
    FilterMembers(HasStatus(st), ps);
    FilterMultiset(HasStatus(st), ps);
    Filter(HasStatus(st), ps)
  }

  /** A column keeps the list's order: the column of two lists joined is
      the two columns joined. */
  lemma ColumnKeepsOrder(a: seq<Prospect>, b: seq<Prospect>, st: Status)
    ensures Column(a + b, st) == Column(a, st) + Column(b, st)
  {
    FilterAppend(HasStatus(st), a, b);
  }

  /** Every prospect of the list sits in the column of its own status and in
      no other; a `REAL_LOSS` prospect sits in none. */
  lemma ColumnPlacement(ps: seq<Prospect>, p: Prospect, c: Status)
    requires p in ps && c in Columns
    ensures p in Column(ps, c) <==> p.status == c
    ensures p.status == REAL_LOSS ==> p !in Column(ps, c)
  {
  }

  /** Index of the first prospect with key `key`, when there is one. */
  function FirstWithKey(ps: seq<Prospect>, key: string): (r: Option<nat>)
    ensures r.None? <==> forall i :: 0 <= i < |ps| ==> ps[i].noProject != key
    ensures r.Some? ==> r.value < |ps| && ps[r.value].noProject == key
    ensures r.Some? ==> forall j :: 0 <= j < r.value ==> ps[j].noProject != key
  {
    if |ps| == 0 then None
    else if ps[0].noProject == key then Some(0)
    else
      match FirstWithKey(ps[1..], key)
      case None => None
      case Some(i) => Some(i + 1)
  }

  /** `prospects.find(p => p.no_project === id)`. */
  function Find(ps: seq<Prospect>, key: string): (r: Option<Prospect>)
    ensures r.None? <==> forall i :: 0 <= i < |ps| ==> ps[i].noProject != key
    ensures r.Some? ==> r.value.noProject == key && r.value == ps[FirstWithKey(ps, key).value]
  {
    match FirstWithKey(ps, key)
    case None => None
    case Some(i) => Some(ps[i])
  }

  /** `prev.map(p => p.no_project === key ? { ...p, status } : p)`. */
  function WithStatus(ps: seq<Prospect>, key: string, st: Status): (r: seq<Prospect>)
    ensures |r| == |ps|
    ensures forall i :: 0 <= i < |ps| && ps[i].noProject == key ==> r[i] == ps[i].(status := st)
    ensures forall i :: 0 <= i < |ps| && ps[i].noProject != key ==> r[i] == ps[i]
  {
    if |ps| == 0 then []
    else [if ps[0].noProject == key then ps[0].(status := st) else ps[0]] + WithStatus(ps[1..], key, st)
  }

  /** A drop: the dragged card's key and the column it was released over,
      if any. */
  datatype Drag = Drag(active: string, over: Option<Status>)

  /** The drop targets are the columns, so a drop names a board status. */
  predicate OnBoard(d: Drag) {
    d.over.Some? ==> d.over.value in Columns
  }

  /** What an unsettled drag's handler still holds: the key, the status it
      saved before the optimistic apply, and the status it sent. */
  datatype InFlight = InFlight(key: string, saved: Status, target: Status)

  datatype BoardState = BoardState(prospects: seq<Prospect>, inFlight: seq<InFlight>)

  /** A drop that changes something: it is over a column, the key is on the
      board, and the card is not already in that column. */
  predicate Moves(ps: seq<Prospect>, d: Drag) {
    d.over.Some? && Find(ps, d.active).Some? && Find(ps, d.active).value.status != d.over.value
  }

  /** `handleDragEnd` up to the request: no target, an unknown key or an
      unchanged status do nothing; otherwise the new status is applied at
      once, before any answer, and the drag waits for its outcome with the
      old status remembered. */
  function DragEnd(b: BoardState, d: Drag): (r: BoardState)
    requires OnBoard(d)
    ensures !Moves(b.prospects, d) ==> r == b
    ensures Moves(b.prospects, d) ==>
              r.inFlight == b.inFlight + [InFlight(d.active, Find(b.prospects, d.active).value.status, d.over.value)]
              && r.prospects == WithStatus(b.prospects, d.active, d.over.value)
  {
    if d.over.None? then b
    else
      match Find(b.prospects, d.active)
      case None => b
      case Some(p) =>
        if p.status == d.over.value then b
        else BoardState(WithStatus(b.prospects, d.active, d.over.value),
                        b.inFlight + [InFlight(d.active, p.status, d.over.value)])
  }

  /** A drag touches only the status of the dragged card, and never puts a
      card into `REAL_LOSS`, which is no column. */
  lemma DragEndChangesOnlyStatus(b: BoardState, d: Drag)
    requires OnBoard(d)
    ensures var r := DragEnd(b, d);
            |r.prospects| == |b.prospects|
            && (forall i :: 0 <= i < |b.prospects| && r.prospects[i] != b.prospects[i] ==>
                  r.prospects[i] == b.prospects[i].(status := r.prospects[i].status)
                  && b.prospects[i].noProject == d.active)
            && (forall i :: 0 <= i < |b.prospects| && r.prospects[i].status == REAL_LOSS ==>
                  b.prospects[i].status == REAL_LOSS)
  {
  }

  /** The outcome of the `k`-th unsettled drag arrives. Success changes
      nothing more; any failure writes the saved status back into every
      prospect with that key, whatever its status is now. */
  function Complete(b: BoardState, k: nat, o: Outcome): (r: BoardState)
    requires k < |b.inFlight|
    ensures r.inFlight == Sortable.RemoveAt(b.inFlight, k)
    ensures o.Ok? ==> r.prospects == b.prospects
    ensures !o.Ok? ==> |r.prospects| == |b.prospects|
    ensures !o.Ok? ==> forall i :: 0 <= i < |b.prospects| ==>
              r.prospects[i] == if b.prospects[i].noProject == b.inFlight[k].key
                                then b.prospects[i].(status := b.inFlight[k].saved)
                                else b.prospects[i]
  {
    var f := b.inFlight[k];
    var rest := Sortable.RemoveAt(b.inFlight, k);
    if o.Ok? then BoardState(b.prospects, rest)
    else BoardState(WithStatus(b.prospects, f.key, f.saved), rest)
  }

  /** Keys identify prospects. */
  predicate UniqueKeys(ps: seq<Prospect>) {
    forall i, j :: 0 <= i < j < |ps| ==> ps[i].noProject != ps[j].noProject
  }

  /** Writing back the status a keyed prospect had restores the list. */
  lemma WithStatusRestores(ps: seq<Prospect>, key: string, st: Status, back: Status)
    requires forall i :: 0 <= i < |ps| && ps[i].noProject == key ==> ps[i].status == back
    ensures WithStatus(WithStatus(ps, key, st), key, back) == ps
  {
    var r := WithStatus(WithStatus(ps, key, st), key, back);
    assert |r| == |ps|;
    forall i | 0 <= i < |ps| ensures r[i] == ps[i] {
    }
  }

  /** Rollback correctness: a drag whose call fails leaves the board as it
      was before the drag. */
  lemma FailedDragRestores(b: BoardState, d: Drag, o: Outcome)
    requires OnBoard(d) && UniqueKeys(b.prospects) && !o.Ok?
    requires Moves(b.prospects, d)
    ensures Complete(DragEnd(b, d), |b.inFlight|, o) == b
  {
    var b1 := DragEnd(b, d);
    var p := Find(b.prospects, d.active).value;
    forall i | 0 <= i < |b.prospects| && b.prospects[i].noProject == d.active
      ensures b.prospects[i].status == p.status
    {
      var j := FirstWithKey(b.prospects, d.active).value;
      assert i == j;
    }
    WithStatusRestores(b.prospects, d.active, d.over.value, p.status);
    assert Sortable.RemoveAt(b1.inFlight, |b.inFlight|) == b.inFlight;
  }

  /** A drag whose call succeeds: the card shows the status it was dropped
      on, both at once and after the answer, and the drag is settled. */
  lemma ConfirmedDragKeepsTarget(b: BoardState, d: Drag)
    requires OnBoard(d) && Moves(b.prospects, d)
    ensures var b1 := DragEnd(b, d);
            var f := b1.inFlight[|b.inFlight|];
            var b2 := Complete(b1, |b.inFlight|, Ok);
            f.key == d.active && f.target == d.over.value
            && b2.inFlight == b.inFlight
            && (forall i :: 0 <= i < |b.prospects| && b.prospects[i].noProject == d.active ==>
                  b1.prospects[i].status == f.target && b2.prospects[i].status == f.target)
  {
    var b1 := DragEnd(b, d);
    assert Sortable.RemoveAt(b1.inFlight, |b.inFlight|) == b.inFlight;
  }

  /** Round trip: a drag and the drag straight back, both confirmed, leave
      the prospects as they were. */
  lemma DragThereAndBack(b: BoardState, key: string, there: Status)
    requires UniqueKeys(b.prospects) && there in Columns
    requires Find(b.prospects, key).Some? && Find(b.prospects, key).value.status in Columns
    requires Find(b.prospects, key).value.status != there
    ensures var back := Find(b.prospects, key).value.status;
            var b1 := DragEnd(b, Drag(key, Some(there)));
            var b2 := DragEnd(b1, Drag(key, Some(back)));
            var b3 := Complete(b2, |b.inFlight|, Ok);
            Complete(b3, |b.inFlight|, Ok).prospects == b.prospects
  {
    var p := Find(b.prospects, key).value;
    var back := p.status;
    forall i | 0 <= i < |b.prospects| && b.prospects[i].noProject == key
      ensures b.prospects[i].status == back
    {
      var j := FirstWithKey(b.prospects, key).value;
      assert i == j;
    }
    var b1 := DragEnd(b, Drag(key, Some(there)));
    var j := FirstWithKey(b1.prospects, key).value;
    assert b.prospects[j].noProject == key;
    assert Find(b1.prospects, key).value.status == there;
    WithStatusRestores(b.prospects, key, there, back);
  }

  /** The stale rollback, concretely: a card is dragged LEAD to PROPOSAL and
      then PROPOSAL to WON; the second call succeeds, then the first fails.
      The blind rollback puts the card back in LEAD although the last,
      confirmed drag put it in WON. */
  lemma StaleRollbackOverwritesNewerDrag()
    ensures var p := Prospect("IMX.1", "Plant", "Client", "Contact", LEAD);
            var b0 := BoardState([p], []);
            var b1 := DragEnd(b0, Drag("IMX.1", Some(PROPOSAL)));
            var b2 := DragEnd(b1, Drag("IMX.1", Some(WON)));
            var b3 := Complete(b2, 1, Ok);
            var b4 := Complete(b3, 0, Fail);
            b2.prospects[0].status == WON && b3.prospects[0].status == WON
            && b4.prospects[0].status == LEAD && b4.inFlight == []
  {
    var p := Prospect("IMX.1", "Plant", "Client", "Contact", LEAD);
    var b0 := BoardState([p], []);
    assert Find(b0.prospects, "IMX.1") == Some(p);
    var b1 := DragEnd(b0, Drag("IMX.1", Some(PROPOSAL)));
    assert b1.prospects == [p.(status := PROPOSAL)];
    assert Find(b1.prospects, "IMX.1") == Some(p.(status := PROPOSAL));
    var b2 := DragEnd(b1, Drag("IMX.1", Some(WON)));
    assert b2.prospects == [p.(status := WON)];
    assert b2.inFlight == [InFlight("IMX.1", LEAD, PROPOSAL), InFlight("IMX.1", PROPOSAL, WON)];
    var b3 := Complete(b2, 1, Ok);
    assert b3.inFlight == [InFlight("IMX.1", LEAD, PROPOSAL)];
  }

  /** The rollback of an older drag overwrites the optimistic status of any
      newer drag of the same card that is still unsettled. */
  lemma RollbackIgnoresNewerDrag(b: BoardState, k: nat, j: nat, o: Outcome, i: nat)
    requires k < j < |b.inFlight| && !o.Ok?
    requires b.inFlight[j].key == b.inFlight[k].key
    requires i < |b.prospects| && b.prospects[i].noProject == b.inFlight[k].key
    ensures Complete(b, k, o).prospects[i].status == b.inFlight[k].saved
  {
  }

  /** The Real Loss action is on the menu of `LOSS` cards only. */
  predicate RealLossOffered(p: Prospect)
    ensures RealLossOffered(p) ==> p.status in Columns && p.status != REAL_LOSS
  {
    p.status == LOSS
  }

  /** `handleMoveToRealLoss` as reached from a card: offered only for `LOSS`,
      nothing happens unless confirmed, then `REAL_LOSS` is sent with no
      local change; success refetches, failure alerts. */
  function MoveToRealLoss(p: Prospect, confirmed: bool, o: Outcome): (r: Reaction)
    ensures !RealLossOffered(p) || !confirmed ==> r == Idle
    ensures RealLossOffered(p) && confirmed ==>
              r.sent == Some(PutProspectStatus(p.noProject, REAL_LOSS))
              && (r.refetch <==> o.Ok?) && (r.alerted <==> !o.Ok?)
  {
    if !RealLossOffered(p) || !confirmed then Idle
    else SendThenRefetch(PutProspectStatus(p.noProject, REAL_LOSS), o)
  }

  /** After the refetch, the prospect the server now reports as `REAL_LOSS`
      is on no column of the board. */
  lemma RealLossLeavesBoard(fetched: seq<Prospect>, p: Prospect, c: Status)
    requires p in fetched && p.status == REAL_LOSS && c in Columns
    ensures p !in Column(fetched, c)
  {
  }

  /** The create form. Its status is never edited and starts as `LEAD`. */
  datatype NewProspectForm = NewProspectForm(
    noProject: string, nameProject: string, clientName: string, contactName: string, status: Status)

  const BlankForm: NewProspectForm := NewProspectForm("", "", "", "", LEAD)

  datatype FormField = NoProjectField | NameField | ClientField | ContactField

  /** The text an input shows. */
  function FieldOf(f: NewProspectForm, field: FormField): string {
    match field
    case NoProjectField => f.noProject
    case NameField => f.nameProject
    case ClientField => f.clientName
    case ContactField => f.contactName
  }

  /** Typing into one of the four inputs: that input takes the typed value
      and every other part of the form stays. */
  function EditForm(f: NewProspectForm, field: FormField, value: string): (r: NewProspectForm)
    ensures r.status == f.status
    ensures FieldOf(r, field) == value
    ensures forall other :: other != field ==> FieldOf(r, other) == FieldOf(f, other)
    ensures field == NoProjectField ==> r == f.(noProject := value)
    ensures field == NameField ==> r == f.(nameProject := value)
    ensures field == ClientField ==> r == f.(clientName := value)
    ensures field == ContactField ==> r == f.(contactName := value)
  {
    match field
    case NoProjectField => f.(noProject := value)
    case NameField => f.(nameProject := value)
    case ClientField => f.(clientName := value)
    case ContactField => f.(contactName := value)
  }

  /** The value last typed into `field`, read from the end of the edits;
      `initial` when the input was never touched. */
  function LastTyped(edits: seq<(FormField, string)>, field: FormField, initial: string): string
    decreases |edits|
  {
    if |edits| == 0 then initial
    else if edits[|edits| - 1].0 == field then edits[|edits| - 1].1
    else LastTyped(edits[..|edits| - 1], field, initial)
  }

  /** Typing `e` before the edits is the same as starting from what `e`
      leaves in that input. */
  lemma {:induction false} LastTypedFirst(e: (FormField, string), edits: seq<(FormField, string)>, field: FormField, initial: string)
    ensures LastTyped([e] + edits, field, initial)
         == LastTyped(edits, field, if e.0 == field then e.1 else initial)
    decreases |edits|
  {
    if |edits| == 0 {
      assert ([e] + edits)[..0] == [];
    } else {
      var n := |edits| - 1;
      assert ([e] + edits)[|[e] + edits| - 1] == edits[n];
      assert ([e] + edits)[..|[e] + edits| - 1] == [e] + edits[..n];
      LastTypedFirst(e, edits[..n], field, initial);
    }
  }

  /** A sequence of typing: every input shows the value last typed into it,
      and the status is untouched. */
  function EditAll(f: NewProspectForm, edits: seq<(FormField, string)>): (r: NewProspectForm)
    ensures r.status == f.status
    ensures forall field :: FieldOf(r, field) == LastTyped(edits, field, FieldOf(f, field))
    decreases |edits|
  {
    if |edits| == 0 then f
    else
      var r := EditAll(EditForm(f, edits[0].0, edits[0].1), edits[1..]);
      assert forall field :: FieldOf(r, field) == LastTyped(edits, field, FieldOf(f, field)) by {
        forall field
          ensures FieldOf(r, field) == LastTyped(edits, field, FieldOf(f, field))
        {
          assert [edits[0]] + edits[1..] == edits;
          LastTypedFirst(edits[0], edits[1..], field, FieldOf(f, field));
        }
      }
      r
  }

  /** Typing a value into an input and then typing elsewhere leaves that
      value in place; the last value typed into an input wins. */
  lemma LastEditWins(f: NewProspectForm, edits: seq<(FormField, string)>)
    requires |edits| > 0
    ensures FieldOf(EditAll(f, edits), edits[|edits| - 1].0) == edits[|edits| - 1].1
  {
  }

  /** The "New Prospect" button is for Sales, Manager and Superadmin. */
  predicate CreateOffered(role: Option<Role>)
    ensures CreateOffered(role) <==> role == Some(Sales) || role == Some(Manager) || role == Some(Superadmin)
  {
    Permits(role, CreateProspect)
  }

  /** The form state after a submit attempt. */
  datatype CreateStep = CreateStep(form: NewProspectForm, modalOpen: bool, reaction: Reaction)

  predicate Filled(f: NewProspectForm) {
    f.noProject != "" && f.nameProject != "" && f.clientName != "" && f.contactName != ""
  }

  /** `handleCreate`: the four inputs are `required`, so an unfilled form is
      not submitted; otherwise the form is posted; success closes the modal,
      refetches and resets the form to blank `LEAD`, failure alerts and
      keeps everything. */
  function HandleCreate(f: NewProspectForm, o: Outcome): (r: CreateStep)
    ensures !Filled(f) ==> r == CreateStep(f, true, Idle)
    ensures Filled(f) ==> r.reaction.sent == Some(PostProspect(
              Prospect(f.noProject, f.nameProject, f.clientName, f.contactName, f.status)))
    ensures Filled(f) && o.Ok? ==> r.form == BlankForm && !r.modalOpen && r.reaction.refetch && !r.reaction.alerted
    ensures Filled(f) && !o.Ok? ==> r.form == f && r.modalOpen && r.reaction.alerted && !r.reaction.refetch
  {
    if !Filled(f) then CreateStep(f, true, Idle)
    else
      var req := PostProspect(Prospect(f.noProject, f.nameProject, f.clientName, f.contactName, f.status));
      if o.Ok? then CreateStep(BlankForm, false, SendThenRefetch(req, o))
      else CreateStep(f, true, SendThenRefetch(req, o))
  }

  /** Whatever is typed, and however many creations went before, a created
      prospect is posted with status `LEAD`. */
  lemma CreatedAsLead(edits: seq<(FormField, string)>, o: Outcome)
    ensures var f := EditAll(BlankForm, edits);
            Filled(f) ==> HandleCreate(f, o).reaction.sent.value.prospect.status == LEAD
    ensures HandleCreate(EditAll(BlankForm, edits), o).form.status == LEAD
  {
  }
}

=== FILE: checkpoints.dfy ===
/** Subtask progress as the detail pages present it: the six-way label, the
    five checkpoint buttons, the completion test and the overdue flag. */
module Checkpoints {

  /** The labels; intermediate names are the issued-for stages. */
  datatype Checkpoint = NEW | IFI | IFR | IFA | IFC | DONE

  /** The progress value each label stands for. */
  function Value(c: Checkpoint): int {
    match c
    case NEW => 0
    case IFI => 20
    case IFR => 40
    case IFA => 60
    case IFC => 80
    case DONE => 100
  }

  predicate IsCheckpointValue(progress: int) {
    progress == 0 || progress == 20 || progress == 40 || progress == 60 || progress == 80 || progress == 100
  }

  /** The label chain of the detail pages: exact matches on 100, 80, 60, 40
      and 20, and `NEW` for everything else, off-checkpoint values included. */
  function LabelOf(progress: int): (c: Checkpoint)
    ensures c != NEW ==> Value(c) == progress
    ensures c == NEW <==> progress != 20 && progress != 40 && progress != 60 && progress != 80 && progress != 100
    ensures IsCheckpointValue(progress) ==> Value(c) == progress
  {
    if progress == 100 then DONE
    else if progress == 80 then IFC
    else if progress == 60 then IFA
    else if progress == 40 then IFR
    else if progress == 20 then IFI
    else NEW
  }

  /** Labels and values are inverse on the six checkpoints. */
  lemma LabelValueRoundTrip(c: Checkpoint, progress: int)
    ensures LabelOf(Value(c)) == c
    ensures Value(LabelOf(progress)) == progress <==> IsCheckpointValue(progress)
  {
  }

  /** A checkpoint button: the label shown and the value it selects. */
  datatype Choice = Choice(checkpoint: Checkpoint, val: int)

  /** The buttons of both detail pages, in display order. */
  const Choices: seq<Choice> := [Choice(IFI, 20), Choice(IFR, 40), Choice(IFA, 60), Choice(IFC, 80), Choice(DONE, 100)]

  /** Every button's value carries the label it is shown under; the values
      rise strictly; `NEW` (0) is not among them. */
  lemma ChoicesAreCheckpoints()
    ensures forall i :: 0 <= i < |Choices| ==> LabelOf(Choices[i].val) == Choices[i].checkpoint
    ensures forall i :: 0 <= i < |Choices| ==> Choices[i].checkpoint != NEW && Value(Choices[i].checkpoint) == Choices[i].val
    ensures forall i, j :: 0 <= i < j < |Choices| ==> Choices[i].val < Choices[j].val
  {
  }

  /** Exactly the checkpoint values other than 0 are selectable. */
  lemma SelectableValues(v: int)
    ensures (exists i :: 0 <= i < |Choices| && Choices[i].val == v) <==> IsCheckpointValue(v) && v != 0
  {
    if IsCheckpointValue(v) && v != 0 {
      var i := v / 20 - 1;
      assert Choices[i].val == v;
    }
  }

  /** `progress === 100`: the test behind the done icon, the `COMPLETED`
      badge and the success colour of progress bars. */
  predicate Complete(progress: int) {
    progress == 100
  }

  /** The completion test agrees with the label. */
  lemma CompleteIffDone(progress: int)
    ensures Complete(progress) <==> LabelOf(progress) == DONE
  {
  }

  /** `new Date(deadline) < new Date() && progress < 100`, on integer times. */
  predicate IsOverdue(deadline: int, now: int, progress: int)
    ensures IsOverdue(deadline, now, progress) ==> !Complete(progress)
    ensures deadline >= now ==> !IsOverdue(deadline, now, progress)
  {
    deadline < now && progress < 100
  }

  /** A finished subtask is never overdue, and neither is one whose deadline
      has not passed. */
  lemma OverdueNeedsPastAndUnfinished(deadline: int, now: int, progress: int)
    ensures IsOverdue(deadline, now, progress) ==> !Complete(progress) && LabelOf(progress) != DONE
    ensures deadline >= now ==> !IsOverdue(deadline, now, progress)
  {
  }

  const Day: int := 86_400_000

  /** Three examples, in milliseconds. */
  lemma OverdueExamples(now: int)
    ensures IsOverdue(now - Day, now, 50)
    ensures !IsOverdue(now - Day, now, 100)
    ensures !IsOverdue(now + Day, now, 0)
  {
  }
}

=== FILE: entities.dfy ===
/** The records the front end caches. Ids are the server's opaque strings;
    timestamps are integers (date parsing and formatting are not modelled). */
module Entities {
  import opened Optional

  /** Funnel stage of a prospect. The first five are the Kanban columns;
      `REAL_LOSS` is the terminal write-off reached only by explicit action. */
  datatype Status = LEAD | PROPOSAL | WON | LOSS | HOLD | REAL_LOSS

  /** A sales prospect, keyed by `noProject` (`no_project`). */
  datatype Prospect = Prospect(
    noProject: string,
    nameProject: string,
    clientName: string,
    contactName: string,
    status: Status)

  /** A unit of work under a project or prospect; `progress` is whatever the
      server stores (0..100 through the slider, a checkpoint through buttons). */
  datatype Subtask = Subtask(
    id: string,
    name: string,
    description: Option<string>,
    deadline: int,
    progress: int,
    link: Option<string>)

  /** A delivery project. `progress` and `isDone` are computed by the server. */
  datatype Project = Project(
    id: string,
    prospect: Prospect,
    link: Option<string>,
    progress: int,
    isDone: bool,
    subtasks: seq<Subtask>)

  /** The ids of a project list, in list order (`projects.map(p => p.id)`). */
  function Ids(ps: seq<Project>): (r: seq<string>)
    ensures |r| == |ps|
    ensures forall i :: 0 <= i < |ps| ==> r[i] == ps[i].id
  {
    if |ps| == 0 then [] else [ps[0].id] + Ids(ps[1..])
  }

  /** Index of the first project with id `id` (`findIndex`), when there is one. */
  function IndexOfId(ps: seq<Project>, id: string): (r: nat)
    requires id in Ids(ps)
    ensures r < |ps| && ps[r].id == id
    ensures forall j :: 0 <= j < r ==> ps[j].id != id
  {
    if ps[0].id == id then 0
    else
      assert Ids(ps) == [ps[0].id] + Ids(ps[1..]);
      1 + IndexOfId(ps[1..], id)
  }
}

=== FILE: layout.dfy ===
/** The main layout: the side navigation filtered by role, and the logout
    button. */
module Layout {
  import opened Optional
  import opened Roles
  import opened Seqs
  import opened Auth

  /** The entries of `navItems`. */
  datatype Entry = Dashboard | Prospects | Projects | ProjectStatus | RoleMgmt

  function Title(e: Entry): string {
    match e
    case Dashboard => "Dashboard"
    case Prospects => "Prospects"
    case Projects => "Projects"
    case ProjectStatus => "Project Status"
    case RoleMgmt => "Role Mgmt"
  }

  function Path(e: Entry): string {
    match e
    case Dashboard => "/dashboard"
    case Prospects => "/prospects"
    case Projects => "/projects"
    case ProjectStatus => "/project-status"
    case RoleMgmt => "/admin"
  }

  /** The role list of an entry is the one of this action. */
  function Gate(e: Entry): Action {
    match e
    case Dashboard => ViewDashboard
    case Prospects => ViewProspects
    case Projects => ViewProjects
    case ProjectStatus => ViewProjectStatus
    case RoleMgmt => ViewRoleMgmt
  }

  /** `navItems`, in display order. */
  const NavItems: seq<Entry> := [Dashboard, Prospects, Projects, ProjectStatus, RoleMgmt]

  /** Whether the entry's role list includes `role`. */
  function ShownTo(role: Option<Role>): Entry -> bool {
    (e: Entry) => Permits(role, Gate(e))
  }

  /** `filteredNav`: the entries whose role list contains the user's role,
      in table order. */
  function FilteredNav(items: seq<Entry>, role: Option<Role>): (r: seq<Entry>)
    ensures forall e :: e in r <==> e in items && Permits(role, Gate(e))
    ensures role.None? ==> r == []
  {
    FilterMembers(ShownTo(role), items);
    if role.None? then
      FilterNone(ShownTo(role), items);
      Filter(ShownTo(role), items)
    else Filter(ShownTo(role), items)
  }

  /** Filtering keeps table order: the menu of a longer table is the menu of
      its first part followed by the menu of the rest. */
  lemma FilteredNavKeepsOrder(a: seq<Entry>, b: seq<Entry>, role: Option<Role>)
    ensures FilteredNav(a + b, role) == FilteredNav(a, role) + FilteredNav(b, role)
  {
    FilterAppend(ShownTo(role), a, b);
  }

  /** The menus each role sees, entry by entry. Dashboard and Project Status
      are shown to all four roles, Prospects is hidden from Engineer,
      Projects from Sales, and Role Mgmt is Superadmin's alone. */
  lemma SuperadminMenu()
    ensures FilteredNav(NavItems, Some(Superadmin)) == NavItems
  {
    var p := ShownTo(Some(Superadmin));
    FilterAll(p, NavItems);
  }

  lemma ManagerMenu()
    ensures FilteredNav(NavItems, Some(Manager)) == [Dashboard, Prospects, Projects, ProjectStatus]
  {
    var p := ShownTo(Some(Manager));
    assert Filter(p, [RoleMgmt]) == [] by {
      assert !p(RoleMgmt);
      FilterSingleton(p, RoleMgmt);
    }
    assert Filter(p, [ProjectStatus, RoleMgmt]) == [ProjectStatus] by {
      assert p(ProjectStatus);
      FilterCons(p, ProjectStatus, [RoleMgmt]);
      assert [ProjectStatus] + [RoleMgmt] == [ProjectStatus, RoleMgmt];
    }
    assert Filter(p, [Projects, ProjectStatus, RoleMgmt]) == [Projects, ProjectStatus] by {
      assert p(Projects);
      FilterCons(p, Projects, [ProjectStatus, RoleMgmt]);
      assert [Projects] + [ProjectStatus, RoleMgmt] == [Projects, ProjectStatus, RoleMgmt];
    }
    assert Filter(p, [Prospects, Projects, ProjectStatus, RoleMgmt]) == [Prospects, Projects, ProjectStatus] by {
      assert p(Prospects);
      FilterCons(p, Prospects, [Projects, ProjectStatus, RoleMgmt]);
      assert [Prospects] + [Projects, ProjectStatus, RoleMgmt] == [Prospects, Projects, ProjectStatus, RoleMgmt];
    }
    assert Filter(p, NavItems) == [Dashboard, Prospects, Projects, ProjectStatus] by {
      assert p(Dashboard);
      FilterCons(p, Dashboard, [Prospects, Projects, ProjectStatus, RoleMgmt]);
      assert [Dashboard] + [Prospects, Projects, ProjectStatus, RoleMgmt] == NavItems;
    }
  }

  lemma SalesMenu()
    ensures FilteredNav(NavItems, Some(Sales)) == [Dashboard, Prospects, ProjectStatus]
  {
    var p := ShownTo(Some(Sales));
    assert Filter(p, [RoleMgmt]) == [] by {
      assert !p(RoleMgmt);
      FilterSingleton(p, RoleMgmt);
    }
    assert Filter(p, [ProjectStatus, RoleMgmt]) == [ProjectStatus] by {
      assert p(ProjectStatus);
      FilterCons(p, ProjectStatus, [RoleMgmt]);
      assert [ProjectStatus] + [RoleMgmt] == [ProjectStatus, RoleMgmt];
    }
    assert Filter(p, [Projects, ProjectStatus, RoleMgmt]) == [ProjectStatus] by {
      assert !p(Projects);
      FilterCons(p, Projects, [ProjectStatus, RoleMgmt]);
      assert [Projects] + [ProjectStatus, RoleMgmt] == [Projects, ProjectStatus, RoleMgmt];
    }
    assert Filter(p, [Prospects, Projects, ProjectStatus, RoleMgmt]) == [Prospects, ProjectStatus] by {
      assert p(Prospects);
      FilterCons(p, Prospects, [Projects, ProjectStatus, RoleMgmt]);
      assert [Prospects] + [Projects, ProjectStatus, RoleMgmt] == [Prospects, Projects, ProjectStatus, RoleMgmt];
    }
    assert Filter(p, NavItems) == [Dashboard, Prospects, ProjectStatus] by {
      assert p(Dashboard);
      FilterCons(p, Dashboard, [Prospects, Projects, ProjectStatus, RoleMgmt]);
      assert [Dashboard] + [Prospects, Projects, ProjectStatus, RoleMgmt] == NavItems;
    }
  }

  lemma EngineerMenu()
    ensures FilteredNav(NavItems, Some(Engineer)) == [Dashboard, Projects, ProjectStatus]
  {
    var p := ShownTo(Some(Engineer));
    assert Filter(p, [RoleMgmt]) == [] by {
      assert !p(RoleMgmt);
      FilterSingleton(p, RoleMgmt);
    }
    assert Filter(p, [ProjectStatus, RoleMgmt]) == [ProjectStatus] by {
      assert p(ProjectStatus);
      FilterCons(p, ProjectStatus, [RoleMgmt]);
      assert [ProjectStatus] + [RoleMgmt] == [ProjectStatus, RoleMgmt];
    }
    assert Filter(p, [Projects, ProjectStatus, RoleMgmt]) == [Projects, ProjectStatus] by {
      assert p(Projects);
      FilterCons(p, Projects, [ProjectStatus, RoleMgmt]);
      assert [Projects] + [ProjectStatus, RoleMgmt] == [Projects, ProjectStatus, RoleMgmt];
    }
    assert Filter(p, [Prospects, Projects, ProjectStatus, RoleMgmt]) == [Projects, ProjectStatus] by {
      assert !p(Prospects);
      FilterCons(p, Prospects, [Projects, ProjectStatus, RoleMgmt]);
      assert [Prospects] + [Projects, ProjectStatus, RoleMgmt] == [Prospects, Projects, ProjectStatus, RoleMgmt];
    }
    assert Filter(p, NavItems) == [Dashboard, Projects, ProjectStatus] by {
      assert p(Dashboard);
      FilterCons(p, Dashboard, [Prospects, Projects, ProjectStatus, RoleMgmt]);
      assert [Dashboard] + [Prospects, Projects, ProjectStatus, RoleMgmt] == NavItems;
    }
  }

  /** The `NavLink`s the side navigation renders for a menu: each entry's
      path, which is also its React key, and its label, in menu order. */
  function MenuLinks(menu: seq<Entry>): (r: seq<(string, string)>)
    ensures |r| == |menu|
    ensures forall i :: 0 <= i < |r| ==> r[i].0 == Path(menu[i]) && r[i].1 == Title(menu[i])
  {
    seq(|menu|, i requires 0 <= i < |menu| => (Path(menu[i]), Title(menu[i])))
  }

  /** No two entries of the table share a path or a label. */
  lemma PathsIdentifyEntries(a: Entry, b: Entry)
    ensures Path(a) == Path(b) ==> a == b
    ensures Title(a) == Title(b) ==> a == b
  {
  }

  /** A menu without repeated entries renders links with distinct keys; the
      table itself has none. */
  lemma MenuKeysDistinct(menu: seq<Entry>)
    requires forall i, j :: 0 <= i < j < |menu| ==> menu[i] != menu[j]
    ensures forall i, j :: 0 <= i < j < |menu| ==> MenuLinks(menu)[i].0 != MenuLinks(menu)[j].0
  {
  }

  /** What an Engineer's side navigation shows. */
  lemma EngineerLinks()
    ensures MenuLinks(FilteredNav(NavItems, Some(Engineer)))
         == [("/dashboard", "Dashboard"), ("/projects", "Projects"), ("/project-status", "Project Status")]
  {
    EngineerMenu();
  }

  /** The role of the signed-in user, `undefined` without one. */
  function RoleOf(s: Session): (r: Option<Role>)
    ensures r.Some? <==> s.user.Some?
    ensures r.Some? ==> r.value == s.user.value.role
  {
    if s.user.Some? then Some(s.user.value.role) else None
  }

  /** Where the logout button leaves the application. */
  datatype LogoutEffect = LogoutEffect(session: Session, navigateTo: string)

  /** `handleLogout`: clear the session, then go to `/login`; the cleared
      session has no role, so the menu is empty. */
  function HandleLogout(s: Session): (r: LogoutEffect)
    ensures r.session.token.None? && r.session.user.None?
    ensures r.session.loading == s.loading
    ensures r.navigateTo == "/login"
    ensures FilteredNav(NavItems, RoleOf(r.session)) == []
  {
    LogoutEffect(Logout(s), "/login")
  }
}

=== FILE: links.dfy ===
/** External links of projects and subtasks: shown only when non-empty, and
    given an `https://` prefix unless they already start with `http`. The
    pages use that rule as written; `NormaliseScheme` is the rule it
    evidently means. */
module Links {
  import opened Optional

  predicate StartsWith(s: string, prefix: string) {
    |prefix| <= |s| && s[..|prefix|] == prefix
  }

  lemma PrefixOfConcat(a: string, b: string, prefix: string)
    requires StartsWith(a, prefix)
    ensures StartsWith(a + b, prefix)
  {
    assert (a + b)[..|prefix|] == a[..|prefix|];
  }

  /** `link.startsWith('http') ? link : \`https://${link}\``. */
  function Normalise(link: string): (r: string)
    ensures StartsWith(r, "http")
    ensures StartsWith(link, "http") ==> r == link
    ensures !StartsWith(link, "http") ==> r == "https://" + link
  {
    if StartsWith(link, "http") then link
    else
      PrefixOfConcat("https://", link, "http");
      "https://" + link
  }

  /** The prefix test always succeeds on a normalised link, so normalising
      again leaves it unchanged. */
  lemma NormaliseIdempotent(link: string)
    ensures Normalise(Normalise(link)) == Normalise(link)
  {
  }

  /** The href of a link cell (`link && (link.startsWith('http') ? …)`):
      present only for a truthy link, and then normalised by the prefix test
      as written. */
  function Href(link: Option<string>): (r: Option<string>)
    ensures r.Some? <==> link.Some? && link.value != ""
    ensures r.Some? ==> StartsWith(r.value, "http") && r.value == Normalise(link.value)
    ensures r.Some? && StartsWith(link.value, "http") ==> r.value == link.value
    ensures r.Some? && !StartsWith(link.value, "http") ==> r.value == "https://" + link.value
  {
    if link.Some? && link.value != "" then Some(Normalise(link.value)) else None
  }

  /** A URL scheme the browser will follow as an absolute link. */
  predicate HasScheme(s: string) {
    StartsWith(s, "http://") || StartsWith(s, "https://")
  }

  /** The prefix test is on `http`, not on a scheme: a host name that merely
      begins with those letters is kept as it is and opens as a relative
      path. */
  lemma HostStartingWithHttpKeepsNoScheme()
    ensures Normalise("httpbin.org") == "httpbin.org"
    ensures !HasScheme(Normalise("httpbin.org"))
    ensures Href(Some("httpbin.org")) == Some("httpbin.org")
    ensures NormaliseScheme("httpbin.org") == "https://httpbin.org"
  {
    assert StartsWith("httpbin.org", "http");
    assert "httpbin.org"[..7][4] != "http://"[4];
    assert "httpbin.org"[..8][4] != "https://"[4];
  }

  /** The evidently intended rule: keep links that already carry a scheme,
      prefix everything else. */
  function NormaliseScheme(link: string): (r: string)
    ensures HasScheme(r)
    ensures HasScheme(link) ==> r == link
    ensures !HasScheme(link) ==> r == "https://" + link
  {
    if HasScheme(link) then link
    else
      PrefixOfConcat("https://", link, "https://");
      "https://" + link
  }

  /** The corrected rule is idempotent too, and agrees with the source on
      every link that carries a scheme or does not start with `http`. */
  lemma NormaliseSchemeAgrees(link: string)
    ensures NormaliseScheme(NormaliseScheme(link)) == NormaliseScheme(link)
    ensures HasScheme(link) || !StartsWith(link, "http") ==> NormaliseScheme(link) == Normalise(link)
  {
    if StartsWith(link, "http://") {
      assert link[..4] == link[..7][..4];
    } else if StartsWith(link, "https://") {
      assert link[..4] == link[..8][..4];
    } else if !StartsWith(link, "http") {
      assert "https://"[..4] == "http";
    }
  }
}

=== FILE: project_detail.dfy ===
/** The project page: status panel, link editing, the add-task form and the
    progress slider, with `is_done` freezing the page's editing controls. */
module ProjectDetail {
  import opened Optional
  import opened Entities
  import opened Remote
  import Roles
  import opened Checkpoints
  import Links
  import opened ProjectRow
  import opened SubtaskActions

  /** The parts of the page that depend on the project and the viewer. */
  datatype Panel = Panel(
    statusText: string,
    barSuccess: bool,
    link: Option<string>,
    linkEditToggle: bool,
    addTaskButton: bool,
    sliderEnabled: bool,
    deleteButtons: bool)

  /** The page for project `p` as seen by a viewer with `role`. The role
      lists are the ones written in the page: link editing for Manager,
      Superadmin and Engineer; deleting subtasks for Manager and Superadmin. */
  function PanelOf(p: Project, role: Option<Roles.Role>): (v: Panel)
    ensures v.statusText == (if p.isDone then "COMPLETED" else "IN PROGRESS")
    ensures v.barSuccess <==> Complete(p.progress)
    ensures v.link == Links.Href(p.link)
    ensures v.linkEditToggle <==> role == Some(Roles.Manager) || role == Some(Roles.Superadmin) || role == Some(Roles.Engineer)
    ensures v.deleteButtons <==> role == Some(Roles.Manager) || role == Some(Roles.Superadmin)
    ensures v.addTaskButton <==> !p.isDone
    ensures v.sliderEnabled <==> !p.isDone
  {
    Panel(
      if p.isDone then "COMPLETED" else "IN PROGRESS",
      p.progress == 100,
      Links.Href(p.link),
      Roles.Permits(role, Roles.EditProjectLink),
      !p.isDone,
      !p.isDone,
      DeleteOffered(role))
  }

  /** The page's gates agree with the capability table, and a done project
      offers neither the add-task button nor the slider, whoever looks. */
  lemma PanelFollowsCapabilities(p: Project, r: Roles.Role)
    ensures PanelOf(p, Some(r)).linkEditToggle <==> Roles.EditProjectLink in Roles.Capabilities(r)
    ensures PanelOf(p, Some(r)).deleteButtons <==> Roles.DeleteSubtask in Roles.Capabilities(r)
    ensures p.isDone ==> !PanelOf(p, Some(r)).addTaskButton && !PanelOf(p, Some(r)).sliderEnabled
  {
    Roles.PermitsMatchesCapabilities(r, Roles.EditProjectLink);
    Roles.PermitsMatchesCapabilities(r, Roles.DeleteSubtask);
  }

  /** Moving a subtask's slider: the range input yields 0..100, and it is
      disabled on a done project. Any value in range is sent, not only the
      checkpoints. */
  function SliderChange(p: Project, taskId: string, value: int, o: Outcome): (r: Reaction)
    requires 0 <= value <= 100
    ensures p.isDone ==> r == Idle
    ensures !p.isDone ==> r.sent == Some(PutSubtaskProgress(taskId, value)) && (r.refetch <==> o.Ok?) && (r.alerted <==> !o.Ok?)
  {
    if p.isDone then Idle else UpdateProgress(taskId, value, o)
  }

  /** The slider can store a value that no checkpoint names; the prospect
      and subtask pages then label it `NEW`. */
  lemma SliderLeavesCheckpoints(p: Project, taskId: string, o: Outcome)
    requires !p.isDone
    ensures SliderChange(p, taskId, 50, o).sent == Some(PutSubtaskProgress(taskId, 50))
    ensures !IsCheckpointValue(50) && LabelOf(50) == NEW
  {
  }

  /** `location.state?.openAddSubtask`: whether project `p`'s page opens
      with the add-task form shown. Only the arrival state decides; the
      project, done or not, is not consulted. */
  predicate OpensAddForm(p: Project, arrival: Navigation)
    ensures OpensAddForm(p, arrival) <==> arrival.openAddSubtask
  {
    arrival.openAddSubtask
  }

  /** The row's plus button lands on this project's page with the form open;
      a plain row click lands there with it closed. */
  lemma ShortcutOpensAddForm(p: Project)
    requires !p.isDone
    ensures AddSubtaskShortcut(p).Some?
    ensures AddSubtaskShortcut(p).value.path == "/projects/" + p.id
    ensures OpensAddForm(p, AddSubtaskShortcut(p).value)
    ensures !OpensAddForm(p, RowClick(p))
  {
  }

  /** The arrival state is honoured without looking at `is_done`: a stale
      navigation carrying it shows the form on a done project even though
      the page offers no button for it. */
  lemma ArrivalIgnoresDone(p: Project, role: Option<Roles.Role>)
    requires p.isDone
    ensures OpensAddForm(p, Navigation("/projects/" + p.id, true))
    ensures !PanelOf(p, role).addTaskButton
  {
  }

  /** The link input starts from the stored link, or empty (`link || ''`). */
  function LinkDraft(p: Project): (d: string)
    ensures p.link.Some? ==> d == p.link.value
    ensures p.link.None? ==> d == ""
  {
    if p.link.Some? then p.link.value else ""
  }

  /** The link editor after a save: whether it is still open, and what was
      sent. */
  datatype LinkStep = LinkStep(editing: bool, reaction: Reaction)

  /** `handleUpdateProjectLink`: the draft is sent as typed, empty included
      (which clears the link). Success closes the editor and refetches;
      failure alerts and leaves it open. */
  function UpdateLink(p: Project, draft: string, o: Outcome): (r: LinkStep)
    ensures r.reaction.sent == Some(PutProjectLink(p.id, draft))
    ensures o.Ok? ==> !r.editing && r.reaction.refetch && !r.reaction.alerted
    ensures !o.Ok? ==> r.editing && r.reaction.alerted && !r.reaction.refetch
  {
    LinkStep(!o.Ok?, SendThenRefetch(PutProjectLink(p.id, draft), o))
  }

  /** Saving an untouched draft resends the stored link; once the server has
      stored a saved draft, the page shows it normalised, or no link when it
      was empty. */
  lemma LinkSaveRoundTrip(p: Project, draft: string, o: Outcome)
    ensures UpdateLink(p, LinkDraft(p), o).reaction.sent == Some(PutProjectLink(p.id, if p.link.Some? then p.link.value else ""))
    ensures PanelOf(p.(link := Some(draft)), None).link.Some? <==> draft != ""
    ensures draft != "" ==> PanelOf(p.(link := Some(draft)), None).link == Some(Links.Normalise(draft))
    ensures Links.StartsWith(draft, "http") ==> PanelOf(p.(link := Some(draft)), None).link == Some(draft)
  {
  }

  /** The add-task form of this page posts under the project. */
  function AddProjectTask(p: Project, f: TaskForm, o: Outcome): (r: AddStep)
    ensures Submittable(f) ==>
              (r.reaction.sent.Some? && r.reaction.sent.value.PostSubtask?
               && r.reaction.sent.value.parentId == p.id && r.reaction.sent.value.forProject)
    ensures !Submittable(f) ==> r.reaction.sent.None? && r.formOpen
  {
    AddTask(p.id, true, f, o)
  }
}

=== FILE: project_row.dfy ===
/** One row of the in-progress project table: status badge, progress colour,
    link and the add-subtask shortcut. */
module ProjectRow {
  import opened Optional
  import opened Entities
  import Checkpoints
  import Links

  /** The status pill of a project. */
  datatype Badge = RealLossBadge | DoneBadge | InProgressBadge

  function BadgeText(b: Badge): string {
    match b
    case RealLossBadge => "REAL LOSS"
    case DoneBadge => "DONE"
    case InProgressBadge => "IN PROGRESS"
  }

  /** Precedence: the prospect's `REAL_LOSS` first, then `is_done`, otherwise
      in progress. */
  function RowBadge(p: Project): (b: Badge)
    ensures b == RealLossBadge <==> p.prospect.status == REAL_LOSS
    ensures b == DoneBadge <==> p.prospect.status != REAL_LOSS && p.isDone
    ensures b == InProgressBadge <==> p.prospect.status != REAL_LOSS && !p.isDone
  {
    if p.prospect.status == REAL_LOSS then RealLossBadge
    else if p.isDone then DoneBadge
    else InProgressBadge
  }

  /** A done project of a written-off prospect still shows `REAL LOSS`. */
  lemma RealLossOutranksDone(p: Project)
    requires p.isDone && p.prospect.status == REAL_LOSS
    ensures BadgeText(RowBadge(p)) == "REAL LOSS"
  {
  }

  datatype BarColour = SuccessBar | PrimaryBar

  /** The progress bar turns to the success colour at exactly 100. */
  function BarColourOf(progress: int): (c: BarColour)
    ensures c == SuccessBar <==> Checkpoints.Complete(progress)
  {
    if progress == 100 then SuccessBar else PrimaryBar
  }

  /** A navigation with its router state. */
  datatype Navigation = Navigation(path: string, openAddSubtask: bool)

  function DetailPath(p: Project): string {
    "/projects/" + p.id
  }

  /** Clicking the row opens the project page without extra state. */
  function RowClick(p: Project): (n: Navigation)
    ensures n.path == DetailPath(p) && !n.openAddSubtask
  {
    Navigation(DetailPath(p), false)
  }

  /** The plus button: present only while the project is not done, and it
      asks the project page to open its add-subtask form. */
  function AddSubtaskShortcut(p: Project): (r: Option<Navigation>)
    ensures r.Some? <==> !p.isDone
    ensures r.Some? ==> r.value.path == DetailPath(p) && r.value.openAddSubtask
  {
    if p.isDone then None else Some(Navigation(DetailPath(p), true))
  }

  /** The link icon: present for a non-empty link; its target starts with
      `http`, and is the stored link itself whenever that does. */
  function RowLink(p: Project): (r: Option<string>)
    ensures r.Some? <==> p.link.Some? && p.link.value != ""
    ensures r.Some? ==> Links.StartsWith(r.value, "http")
    ensures r.Some? && Links.StartsWith(p.link.value, "http") ==> r.value == p.link.value
    ensures r.Some? && !Links.StartsWith(p.link.value, "http") ==> r.value == "https://" + p.link.value
  {
    Links.Href(p.link)
  }
}

=== FILE: projects.dfy ===
/** The project list page: drag-to-reorder of the in-progress table, and the
    filter and badge of the done table. */
module ProjectList {
  import opened Optional
  import opened Entities
  import opened Remote
  import opened Seqs
  import opened Sortable
  import opened ProjectRow

  /** The reorder handler's effect: the new local list, the request it sent,
      and whether a failure of that request was logged. */
  datatype Reordered = Reordered(projects: seq<Project>, sent: Option<Request>, logged: bool)

  /** `handleDragEnd` of the table. Both ids belong to rows of the list
      (the sortable context is built from its ids). Without a drop target
      the handler throws on `over.id` before touching anything; dropping on
      itself does nothing. Otherwise the dragged row moves to the drop
      row's index, the full id list is sent, and the new order stays
      whatever the outcome: a failure is only logged. */
  function HandleReorder(ps: seq<Project>, active: string, over: Option<string>, o: Outcome): (r: Reordered)
    requires active in Ids(ps)
    requires over.Some? ==> over.value in Ids(ps)
    ensures over.None? || over.value == active ==> r == Reordered(ps, None, false)
    ensures over.Some? && over.value != active ==>
              r.projects == ArrayMove(ps, IndexOfId(ps, active), IndexOfId(ps, over.value))
              && r.sent == Some(PutReorder(Ids(r.projects)))
              && (r.logged <==> !o.Ok?)
    ensures multiset(r.projects) == multiset(ps)
    ensures over.Some? ==> r.projects[IndexOfId(ps, over.value)].id == active
  {
    if over.None? || over.value == active then Reordered(ps, None, false)
    else
      var moved := ArrayMove(ps, IndexOfId(ps, active), IndexOfId(ps, over.value));
      Reordered(moved, Some(PutReorder(Ids(moved))), !o.Ok?)
  }

  /** Best effort: the local order never depends on whether it was saved. */
  lemma ReorderIgnoresPersistence(ps: seq<Project>, active: string, over: Option<string>, o1: Outcome, o2: Outcome)
    requires active in Ids(ps)
    requires over.Some? ==> over.value in Ids(ps)
    ensures HandleReorder(ps, active, over, o1).projects == HandleReorder(ps, active, over, o2).projects
    ensures HandleReorder(ps, active, over, o1).sent == HandleReorder(ps, active, over, o2).sent
  {
  }

  /** Moving the first of three rows onto the third gives the second, the
      third, then the first, and that is the id list sent. */
  lemma ReorderExample(p1: Project, p2: Project, p3: Project, o: Outcome)
    requires p1.id == "1" && p2.id == "2" && p3.id == "3"
    ensures Ids([p1, p2, p3])[0] == "1" && Ids([p1, p2, p3])[2] == "3"
    ensures HandleReorder([p1, p2, p3], "1", Some("3"), o).projects == [p2, p3, p1]
    ensures HandleReorder([p1, p2, p3], "1", Some("3"), o).sent == Some(PutReorder(["2", "3", "1"]))
  {
    var ps := [p1, p2, p3];
    assert "1" != "3" && "2" != "3";
    IdsOfThree(p1, p2, p3);
    assert IndexOfId(ps, "1") == 0;
    assert IndexOfId(ps, "3") == 2;
    var moved := ArrayMove(ps, 0, 2);
    ArrayMoveShift(ps, 0, 2);
    assert moved == [p2, p3, p1];
    IdsOfThree(p2, p3, p1);
  }

  /** The id list of three rows, element by element. */
  lemma IdsOfThree(a: Project, b: Project, c: Project)
    ensures Ids([a, b, c]) == [a.id, b.id, c.id]
  {
    var ids := Ids([a, b, c]);
    assert |ids| == 3 && ids[0] == a.id && ids[1] == b.id && ids[2] == c.id;
  }

  /** The done table's filter pills. */
  datatype DoneFilter = AllStatus | DoneOnly | RealLossOnly

  predicate IsRealLoss(p: Project) {
    p.prospect.status == REAL_LOSS
  }

  function Keeps(f: DoneFilter): Project -> bool {
    (p: Project) => match f
      case AllStatus => true
      case RealLossOnly => IsRealLoss(p)
      case DoneOnly => !IsRealLoss(p)
  }

  /** The rows the done table shows under a filter, in list order. */
  function ApplyDoneFilter(ps: seq<Project>, f: DoneFilter): (r: seq<Project>)
    ensures f == AllStatus ==> r == ps
    ensures f == RealLossOnly ==> forall p :: p in r <==> p in ps && IsRealLoss(p)
    ensures f == DoneOnly ==> forall p :: p in r <==> p in ps && !IsRealLoss(p)
    ensures multiset(r) <= multiset(ps)
  {
    FilterMembers(Keeps(f), ps);
    FilterMultiset(Keeps(f), ps);
    if f == AllStatus then
      FilterAll(Keeps(f), ps);
      Filter(Keeps(f), ps)
    else Filter(Keeps(f), ps)
  }

  /** A filter keeps the list's (drag-saved) order: filtering two lists
      joined is joining the two filtered lists. */
  lemma DoneFilterKeepsOrder(a: seq<Project>, b: seq<Project>, f: DoneFilter)
    ensures ApplyDoneFilter(a + b, f) == ApplyDoneFilter(a, f) + ApplyDoneFilter(b, f)
  {
    FilterAppend(Keeps(f), a, b);
  }

  /** The Done and Real Loss filters partition the list: no row is in both,
      and together they hold every row exactly as often as the list does. */
  lemma DoneFiltersPartition(ps: seq<Project>)
    ensures multiset(ApplyDoneFilter(ps, RealLossOnly)) + multiset(ApplyDoneFilter(ps, DoneOnly)) == multiset(ps)
    ensures forall p :: !(p in ApplyDoneFilter(ps, RealLossOnly) && p in ApplyDoneFilter(ps, DoneOnly))
  {
    FilterPartition(Keeps(RealLossOnly), Keeps(DoneOnly), ps);
  }

  /** The badge of the done table: `REAL LOSS` for a written-off prospect,
      `DONE` for anything else. */
  function DoneViewBadge(p: Project): (b: Badge)
    ensures b == RealLossBadge <==> IsRealLoss(p)
    ensures b == DoneBadge <==> !IsRealLoss(p)
  {
    if IsRealLoss(p) then RealLossBadge else DoneBadge
  }

  /** Each filter shows only rows wearing its own badge; and on done projects
      the done table and the in-progress row agree on the badge. */
  lemma FilterMatchesBadge(ps: seq<Project>, p: Project)
    ensures p in ApplyDoneFilter(ps, RealLossOnly) ==> DoneViewBadge(p) == RealLossBadge
    ensures p in ApplyDoneFilter(ps, DoneOnly) ==> DoneViewBadge(p) == DoneBadge
    ensures p.isDone ==> DoneViewBadge(p) == RowBadge(p)
  {
  }
}

=== FILE: prospect_detail.dfy ===
/** The prospect page: subtasks with the checkpoint buttons, the linked
    project shortcut, and how subtask cards route to the subtask page. */
module ProspectDetail {
  import opened Optional
  import opened Entities
  import opened Remote
  import opened Checkpoints
  import opened SubtaskActions

  /** What the page fetched: the prospect, the id of its project if it has
      one, and its subtasks. */
  datatype Sheet = Sheet(prospect: Prospect, linkedProject: Option<string>, subtasks: seq<Subtask>)

  /** Which checkpoint buttons of a subtask are highlighted
      (`task.progress === s.val`), in button order. */
  function Highlighted(progress: int): (h: seq<bool>)
    ensures |h| == |Choices|
    ensures forall i :: 0 <= i < |h| ==> (h[i] <==> Choices[i].val == progress)
  {
    seq(|Choices|, i requires 0 <= i < |Choices| => Choices[i].val == progress)
  }

  /** The highlight and the status label tell the same story: a button is lit
      exactly when the label names its checkpoint, at most one is lit, and
      none is for `NEW`, off-checkpoint values included. */
  lemma HighlightMatchesLabel(progress: int)
    ensures forall i :: 0 <= i < |Choices| ==> (Highlighted(progress)[i] <==> LabelOf(progress) == Choices[i].checkpoint)
    ensures forall i, j :: 0 <= i < j < |Choices| ==> !(Highlighted(progress)[i] && Highlighted(progress)[j])
    ensures LabelOf(progress) == NEW ==> forall i :: 0 <= i < |Choices| ==> !Highlighted(progress)[i]
  {
    ChoicesAreCheckpoints();
  }

  /** Clicking a checkpoint button sends its value; like every handler here
      it changes nothing locally and waits for the refetch. Unlike the
      project page's slider, nothing here depends on `is_done`. */
  function ChooseCheckpoint(taskId: string, c: Choice, o: Outcome): (r: Reaction)
    requires c in Choices
    ensures r.sent.Some? && r.sent.value.PutSubtaskProgress? && r.sent.value.subtaskId == taskId
    ensures LabelOf(r.sent.value.progress) == c.checkpoint && IsCheckpointValue(r.sent.value.progress)
    ensures r.refetch <==> o.Ok?
    ensures r.alerted <==> !o.Ok?
  {
    ChoicesAreCheckpoints();
    UpdateProgress(taskId, c.val, o)
  }

  /** Once the server has stored the chosen value, the refetched card shows
      that checkpoint's label and lights exactly that button. */
  lemma ChosenCheckpointShows(taskId: string, i: nat, o: Outcome)
    requires i < |Choices|
    ensures var stored := ChooseCheckpoint(taskId, Choices[i], o).sent.value.progress;
            LabelOf(stored) == Choices[i].checkpoint
            && forall j :: 0 <= j < |Choices| ==> (Highlighted(stored)[j] <==> j == i)
  {
    ChoicesAreCheckpoints();
  }

  /** The "Go to Project Detail" button: present when the prospect has a
      project, leading to it. */
  function ProjectShortcut(s: Sheet): (r: Option<string>)
    ensures r.Some? <==> s.linkedProject.Some?
    ensures r.Some? ==> r.value == "/projects/" + s.linkedProject.value
  {
    if s.linkedProject.Some? then Some("/projects/" + s.linkedProject.value) else None
  }

  /** Where clicking a subtask card goes: under the linked project, or under
      the placeholder `prospect` when there is none (`project?.id ||
      'prospect'`). */
  function SubtaskPath(s: Sheet, taskId: string): (r: string)
    ensures s.linkedProject.Some? && s.linkedProject.value != "" ==>
              r == "/projects/" + s.linkedProject.value + "/subtasks/" + taskId
    ensures s.linkedProject.None? || s.linkedProject.value == "" ==>
              r == "/projects/prospect/subtasks/" + taskId
  {
    var parent := if s.linkedProject.Some? && s.linkedProject.value != "" then s.linkedProject.value else "prospect";
    "/projects/" + parent + "/subtasks/" + taskId
  }

  /** The add-task form of this page posts under the prospect's
      `no_project`, and the "Add Task" button is always offered. */
  function AddProspectTask(s: Sheet, f: TaskForm, o: Outcome): (r: AddStep)
    ensures Submittable(f) ==>
              (r.reaction.sent.Some? && r.reaction.sent.value.PostSubtask?
               && r.reaction.sent.value.parentId == s.prospect.noProject && !r.reaction.sent.value.forProject)
    ensures !Submittable(f) ==> r.reaction.sent.None? && r.formOpen
  {
    AddTask(s.prospect.noProject, false, f, o)
  }
}

=== FILE: remote.dfy ===
/** The boundary to the REST backend. The backend itself is not modelled:
    every call is a `Request` the front end sends, and how it settled is an
    explicit `Outcome` input to the handler that sent it. */
module Remote {
  import opened Optional
  import opened Entities

  /** How an HTTP call settled: `Ok` for a 2xx response, `Fail` when no
      response arrived at all (network error), `HttpStatus` for an error
      response with its status code and the optional `message` of its body. */
  datatype Outcome = Ok | Fail | HttpStatus(code: int, message: Option<string>)

  /** 401 or 403 on an error response: the trigger of the global logout. */
  predicate IsAuthFailure(o: Outcome) {
    o.HttpStatus? && (o.code == 401 || o.code == 403)
  }

  /** `error.response?.data?.message || fallback`: the server's message when
      there is a response carrying a non-empty one (JavaScript's `||` also
      skips the empty string), the fallback otherwise. */
  function MessageOr(o: Outcome, fallback: string): (m: string)
    requires !o.Ok?
    ensures m == fallback || (o.HttpStatus? && o.message == Some(m))
    ensures o.HttpStatus? && o.message.Some? && o.message.value != "" ==> m == o.message.value
    ensures fallback != "" ==> m != ""
  {
    match o
    case HttpStatus(_, Some(text)) => if text != "" then text else fallback
    case _ => fallback
  }

  /** The calls the modelled handlers make, with the payload each one sends. */
  datatype Request =
    | PostLogin(username: string, password: string)
    | PostProspect(prospect: Prospect)
    | PutProspectStatus(noProject: string, status: Status)
    | PutReorder(orderedIds: seq<string>)
    | PutProjectLink(projectId: string, link: string)
    | PostSubtask(parentId: string, forProject: bool, name: string, deadline: int, description: string, link: string)
    | PutSubtaskProgress(subtaskId: string, progress: int)
    | PutSubtaskForm(subtaskId: string, name: string, description: string, formDeadline: Option<int>, progress: int, link: string)
    | DeleteSubtask(subtaskId: string)

  /** What a non-optimistic handler does: the request it sends (if any), and
      after the outcome whether it refetches the owning entity or shows an
      alert. Such handlers never touch local entity state themselves, which
      is why `Reaction` carries none. */
  datatype Reaction = Reaction(sent: Option<Request>, refetch: bool, alerted: bool)

  /** The pattern shared by every "send, then refetch on success or alert on
      failure" handler of the detail pages. */
  function SendThenRefetch(req: Request, o: Outcome): (r: Reaction)
    ensures r.sent == Some(req)
    ensures r.refetch != r.alerted
    ensures r.refetch <==> o.Ok?
  {
    Reaction(Some(req), o.Ok?, !o.Ok?)
  }

  /** Nothing sent, nothing to react to. */
  const Idle: Reaction := Reaction(None, false, false)
}

=== FILE: roles.dfy ===
/** The role arrays the pages and the layout test `user?.role` against,
    gathered into one table. Gating is advisory: it only decides whether an
    affordance is offered; the server re-checks every call. */
module Roles {
  import opened Optional

  datatype Role = Superadmin | Manager | Sales | Engineer

  /** Every affordance the source gates on a role list. */
  datatype Action =
    | ViewDashboard      // navigation entry "Dashboard"
    | ViewProspects      // navigation entry "Prospects"
    | ViewProjects       // navigation entry "Projects"
    | ViewProjectStatus  // navigation entry "Project Status"
    | ViewRoleMgmt       // navigation entry "Role Mgmt"
    | CreateProspect     // "New Prospect" button on the board
    | EditProjectLink    // edit toggle of a project's link
    | DeleteSubtask      // trash button on a subtask (project and prospect pages)

  /** The role array written at each call site, in the order written there. */
  function AllowedRoles(a: Action): (r: seq<Role>)
    ensures Superadmin in r
    ensures 1 <= |r| <= 4
  {
    match a
    case ViewDashboard => [Superadmin, Manager, Sales, Engineer]
    case ViewProspects => [Superadmin, Manager, Sales]
    case ViewProjects => [Superadmin, Manager, Engineer]
    case ViewProjectStatus => [Superadmin, Manager, Engineer, Sales]
    case ViewRoleMgmt => [Superadmin]
    case CreateProspect => [Sales, Manager, Superadmin]
    case EditProjectLink => [Manager, Superadmin, Engineer]
    case DeleteSubtask => [Manager, Superadmin]
  }

  /** `roles.includes(user?.role)`: without a user the role is `undefined`,
      which no array contains. */
  predicate Permits(role: Option<Role>, a: Action)
    ensures Permits(role, a) ==> role.Some?
    ensures role == Some(Superadmin) ==> Permits(role, a)
  {
    role.Some? && role.value in AllowedRoles(a)
  }

  /** What each role may do, written role by role as an independent reference
      for the per-action arrays above. */
  function Capabilities(r: Role): set<Action> {
    match r
    case Superadmin => {ViewDashboard, ViewProspects, ViewProjects, ViewProjectStatus, ViewRoleMgmt,
                         CreateProspect, EditProjectLink, DeleteSubtask}
    case Manager => {ViewDashboard, ViewProspects, ViewProjects, ViewProjectStatus,
                      CreateProspect, EditProjectLink, DeleteSubtask}
    case Sales => {ViewDashboard, ViewProspects, ViewProjectStatus, CreateProspect}
    case Engineer => {ViewDashboard, ViewProjects, ViewProjectStatus, EditProjectLink}
  }

  /** The per-call-site arrays and the per-role table agree on every pair. */
  lemma PermitsMatchesCapabilities(r: Role, a: Action)
    ensures Permits(Some(r), a) <==> a in Capabilities(r)
  {
  }

  /** No user, no affordance. */
  lemma NoUserNoAction(a: Action)
    ensures !Permits(None, a)
  {
  }

  /** Superadmin is offered everything; every other role is refused Role Mgmt. */
  lemma SuperadminAll(a: Action, r: Role)
    ensures Permits(Some(Superadmin), a)
    ensures r != Superadmin ==> !Permits(Some(r), ViewRoleMgmt)
  {
  }

  /** Deleting a subtask is allowed to a subset of the link editors, and the
      two role lists differ exactly in Engineer. */
  lemma DeleteNarrowerThanEditLink(r: Role)
    ensures Permits(Some(r), DeleteSubtask) ==> Permits(Some(r), EditProjectLink)
    ensures Permits(Some(r), EditProjectLink) && !Permits(Some(r), DeleteSubtask) <==> r == Engineer
  {
  }
}

=== FILE: routes.dfy ===
/** The route table and `ProtectedRoute` of the application shell. Routing is
    modelled as a choice of page and a decision of what to show for it. */
module Routes {
  import opened Auth

  /** The pages of the route table; every one but `LoginPage` sits under the
      protected layout. `ProjectsPage(doneOnly)` is both `/projects` (false)
      and `/project-status` (true). */
  datatype Page =
    | LoginPage
    | IndexPage
    | DashboardPage
    | ProspectsPage
    | ProspectPage(noProject: string)
    | ProjectsPage(doneOnly: bool)
    | ProjectPage(projectId: string)
    | SubtaskPage(projectId: string, subtaskId: string)
    | AdminPage

  /** What the guard decides between. */
  datatype Guarded = Initializing | RedirectTo(path: string) | Children

  /** `ProtectedRoute`: loading is checked first, then the token; the user
      object is never looked at. */
  function Guard(s: Session): (g: Guarded)
    ensures s.loading ==> g == Initializing
    ensures !s.loading && !HasToken(s.token) ==> g == RedirectTo("/login")
    ensures !s.loading && HasToken(s.token) ==> g == Children
  {
    if s.loading then Initializing
    else if !HasToken(s.token) then RedirectTo("/login")
    else Children
  }

  /** The guard's decision depends on loading and the token only. */
  lemma GuardIgnoresUser(s: Session, u: Optional.Option<User>)
    ensures Guard(s.(user := u)) == Guard(s)
  {
  }

  /** What a page shows. */
  datatype Screen = Waiting | Navigate(path: string) | Show(page: Page)

  /** Resolves a page: the login page is open to everyone, every other page
      goes through the guard, and the index of the protected layout
      redirects to `/dashboard`. */
  function Resolve(s: Session, page: Page): (v: Screen)
    ensures page == LoginPage ==> v == Show(LoginPage)
    ensures page != LoginPage && s.loading ==> v == Waiting
    ensures page != LoginPage && !s.loading && !HasToken(s.token) ==> v == Navigate("/login")
    ensures page == IndexPage && !s.loading && HasToken(s.token) ==> v == Navigate("/dashboard")
    ensures page != LoginPage && page != IndexPage && !s.loading && HasToken(s.token) ==> v == Show(page)
    ensures v.Show? && page != LoginPage ==> HasToken(s.token) && !s.loading && v.page == page
  {
    if page == LoginPage then Show(LoginPage)
    else
      match Guard(s)
      case Initializing => Waiting
      case RedirectTo(path) => Navigate(path)
      case Children => if page == IndexPage then Navigate("/dashboard") else Show(page)
  }

  lemma RunTwo(s: Session, a: Event, b: Event)
    ensures Run(s, [a, b]) == Step(Step(s, a), b)
  {
    assert [a, b][1..] == [b];
    assert [b][1..] == [];
    assert Run(s, [a, b]) == Run(Step(s, a), [b]);
    assert Run(Step(s, a), [b]) == Run(Step(Step(s, a), b), []);
  }

  /** After a successful login and the following render, every protected
      page is reachable; after a logout and render, every one of them sends
      the visitor to `/login`. */
  lemma LoginOpensLogoutCloses(s: Session, g: Grant, page: Page)
    requires page != LoginPage && page != IndexPage
    requires g.token != ""
    ensures Resolve(Run(s, [LoginEvent(Remote.Ok, g), Rendered]), page) == Show(page)
    ensures Resolve(Run(s, [LogoutEvent, Rendered]), page) == Navigate("/login")
  {
    RunTwo(s, LoginEvent(Remote.Ok, g), Rendered);
    RunTwo(s, LogoutEvent, Rendered);
  }
}

=== FILE: seqs.dfy ===
/** The optional value used wherever the source has `null`/`undefined`. */
module Optional {
  datatype Option<+T> = None | Some(value: T)
}

/** Order-preserving filtering of sequences, as `Array.prototype.filter` does it. */
module Seqs {

  /** Keeps the elements satisfying `p`, in their original order. */
  function Filter<T(!new)>(p: T -> bool, s: seq<T>): (r: seq<T>)
    ensures |r| <= |s|
    ensures forall i :: 0 <= i < |r| ==> p(r[i])
  {
    if |s| == 0 then []
    else if p(s[0]) then [s[0]] + Filter(p, s[1..])
    else Filter(p, s[1..])
  }

  /** An element is kept exactly when it is in the list and satisfies `p`. */
  lemma {:induction false} FilterMembers<T(!new)>(p: T -> bool, s: seq<T>)
    ensures forall x :: x in Filter(p, s) <==> x in s && p(x)
    decreases |s|
  {
    if |s| > 0 {
      FilterMembers(p, s[1..]);
      assert s == [s[0]] + s[1..];
    }
  }

  /** Filtering only drops occurrences, never adds them. */
  lemma {:induction false} FilterMultiset<T(!new)>(p: T -> bool, s: seq<T>)
    ensures multiset(Filter(p, s)) <= multiset(s)
    decreases |s|
  {
    if |s| > 0 {
      FilterMultiset(p, s[1..]);
      assert s == [s[0]] + s[1..];
    }
  }

  /** Filtering distributes over concatenation: kept elements stay in their
      relative order, so filtering a list is filtering each part of it. */
  lemma {:induction false} FilterAppend<T(!new)>(p: T -> bool, a: seq<T>, b: seq<T>)
    ensures Filter(p, a + b) == Filter(p, a) + Filter(p, b)
    decreases |a|
  {
    if |a| == 0 {
      assert a + b == b;
    } else {
      assert (a + b)[0] == a[0];
      assert (a + b)[1..] == a[1..] + b;
      FilterAppend(p, a[1..], b);
    }
  }

  /** A predicate and its complement split a list into two parts that together
      hold every element exactly as often as the list does. */
  lemma {:induction false} FilterPartition<T(!new)>(p: T -> bool, q: T -> bool, s: seq<T>)
    requires forall x :: q(x) == !p(x)
    ensures multiset(Filter(p, s)) + multiset(Filter(q, s)) == multiset(s)
    decreases |s|
  {
    if |s| > 0 {
      FilterPartition(p, q, s[1..]);
      assert s == [s[0]] + s[1..];
      assert multiset(s) == multiset{s[0]} + multiset(s[1..]);
      if p(s[0]) {
        assert Filter(p, s) == [s[0]] + Filter(p, s[1..]);
        assert Filter(q, s) == Filter(q, s[1..]);
      } else {
        assert Filter(p, s) == Filter(p, s[1..]);
        assert Filter(q, s) == [s[0]] + Filter(q, s[1..]);
      }
    }
  }

  /** A predicate that every element satisfies keeps the list as it is. */
  lemma {:induction false} FilterAll<T(!new)>(p: T -> bool, s: seq<T>)
    requires forall i :: 0 <= i < |s| ==> p(s[i])
    ensures Filter(p, s) == s
    decreases |s|
  {
    if |s| > 0 {
      FilterAll(p, s[1..]);
    }
  }

  /** Filtering a list is deciding its head, then filtering its tail. */
  lemma FilterCons<T(!new)>(p: T -> bool, x: T, s: seq<T>)
    ensures Filter(p, [x] + s) == (if p(x) then [x] else []) + Filter(p, s)
  {
    assert ([x] + s)[1..] == s;
  }

  /** A one-element list is kept or dropped as a whole. */
  lemma FilterSingleton<T(!new)>(p: T -> bool, x: T)
    ensures Filter(p, [x]) == if p(x) then [x] else []
  {
    assert [x][1..] == [];
  }

  /** A predicate no element satisfies leaves nothing. */
  lemma {:induction false} FilterNone<T(!new)>(p: T -> bool, s: seq<T>)
    requires forall i :: 0 <= i < |s| ==> !p(s[i])
    ensures Filter(p, s) == []
    decreases |s|
  {
    if |s| > 0 {
      FilterNone(p, s[1..]);
    }
  }
}

=== FILE: sortable.dfy ===
/** `arrayMove` of the sortable drag-and-drop library. Its code is not part of
    this model; it is given its standard splice semantics: copy the array,
    splice the element out at `from`, splice it back in at `to`. */
module Sortable {

  /** `s` without its element at `i`. */
  function RemoveAt<T>(s: seq<T>, i: nat): (r: seq<T>)
    requires i < |s|
    ensures |r| == |s| - 1
    ensures forall j :: 0 <= j < i ==> r[j] == s[j]
    ensures forall j :: i <= j < |r| ==> r[j] == s[j + 1]
  {
    s[..i] + s[i + 1..]
  }

  /** `s` with `x` inserted so that it lands at index `i`. */
  function InsertAt<T>(s: seq<T>, i: nat, x: T): (r: seq<T>)
    requires i <= |s|
    ensures |r| == |s| + 1
    ensures r[i] == x
    ensures forall j :: 0 <= j < i ==> r[j] == s[j]
    ensures forall j :: i < j < |r| ==> r[j] == s[j - 1]
  {
    s[..i] + [x] + s[i..]
  }

  /** Removing what was just inserted gives the list back. */
  lemma RemoveInsert<T>(s: seq<T>, i: nat, x: T)
    requires i <= |s|
    ensures RemoveAt(InsertAt(s, i, x), i) == s
  {
    var t := InsertAt(s, i, x);
    var u := RemoveAt(t, i);
    assert |u| == |s|;
    forall j | 0 <= j < |s| ensures u[j] == s[j] {
      if j >= i {
        assert u[j] == t[j + 1];
      }
    }
  }

  /** Taking an element out never changes how often the others occur. */
  lemma RemoveAtMultiset<T>(s: seq<T>, i: nat)
    requires i < |s|
    ensures multiset(RemoveAt(s, i)) + multiset{s[i]} == multiset(s)
  {
    assert s == s[..i] + [s[i]] + s[i + 1..];
    assert RemoveAt(s, i) == s[..i] + s[i + 1..];
  }

  /** Putting an element in adds exactly one occurrence of it. */
  lemma InsertAtMultiset<T>(s: seq<T>, i: nat, x: T)
    requires i <= |s|
    ensures multiset(InsertAt(s, i, x)) == multiset(s) + multiset{x}
  {
    assert s == s[..i] + s[i..];
    assert InsertAt(s, i, x) == s[..i] + [x] + s[i..];
  }

  /** The element at `from` moves to index `to`; the list is a permutation of
      the original and, with the moved element taken out, the others are in
      exactly their old order. */
  function ArrayMove<T>(s: seq<T>, from: nat, to: nat): (r: seq<T>)
    requires from < |s| && to < |s|
    ensures |r| == |s|
    ensures r[to] == s[from]
    ensures multiset(r) == multiset(s)
    ensures RemoveAt(r, to) == RemoveAt(s, from)
  {
    var rest := RemoveAt(s, from);
    RemoveAtMultiset(s, from);
    InsertAtMultiset(rest, to, s[from]);
    RemoveInsert(rest, to, s[from]);
    InsertAt(rest, to, s[from])
  }

  /** Index by index: moving forward shifts the elements in between one place
      to the left, moving backward shifts them one place to the right, and
      everything outside the moved range stays where it was. */
  lemma ArrayMoveShift<T>(s: seq<T>, from: nat, to: nat)
    requires from < |s| && to < |s|
    ensures forall j :: 0 <= j < |s| && j < from && j < to ==> ArrayMove(s, from, to)[j] == s[j]
    ensures forall j :: 0 <= j < |s| && j > from && j > to ==> ArrayMove(s, from, to)[j] == s[j]
    ensures from <= to ==> forall j :: from <= j < to ==> ArrayMove(s, from, to)[j] == s[j + 1]
    ensures to <= from ==> forall j :: to < j <= from ==> ArrayMove(s, from, to)[j] == s[j - 1]
  {
  }

  /** Moving an element onto its own index changes nothing. */
  lemma ArrayMoveSame<T>(s: seq<T>, i: nat)
    requires i < |s|
    ensures ArrayMove(s, i, i) == s
  {
    var r := ArrayMove(s, i, i);
    forall j | 0 <= j < |s| ensures r[j] == s[j] {
      ArrayMoveShift(s, i, i);
    }
  }
}

=== FILE: subtask_actions.dfy ===
/** The subtask handlers and the subtask card that the project page and the
    prospect page share: progress update, confirmed delete, the add-task form,
    and how one subtask is shown. */
module SubtaskActions {
  import opened Optional
  import opened Entities
  import opened Remote
  import Roles
  import opened Checkpoints
  import Links

  /** `updateProgress`: send the value, refetch on success, alert on failure.
      Local subtask state is never changed by the handler itself. */
  function UpdateProgress(taskId: string, value: int, o: Outcome): (r: Reaction)
    ensures r.sent == Some(PutSubtaskProgress(taskId, value))
    ensures r.refetch <==> o.Ok?
    ensures r.alerted <==> !o.Ok?
  {
    SendThenRefetch(PutSubtaskProgress(taskId, value), o)
  }

  /** The trash button of a subtask card. */
  predicate DeleteOffered(role: Option<Roles.Role>) {
    Roles.Permits(role, Roles.DeleteSubtask)
  }

  /** Only managers and superadmins see it. */
  lemma DeleteOfferedTo(role: Option<Roles.Role>)
    ensures DeleteOffered(role) <==> role == Some(Roles.Manager) || role == Some(Roles.Superadmin)
  {
  }

  /** `deleteTask`: nothing unless the browser confirmation is accepted; then
      the delete is sent, success refetches and failure alerts. */
  function DeleteTask(taskId: string, confirmed: bool, o: Outcome): (r: Reaction)
    ensures !confirmed ==> r == Idle
    ensures confirmed ==> r.sent == Some(DeleteSubtask(taskId)) && (r.refetch <==> o.Ok?) && (r.alerted <==> !o.Ok?)
  {
    if !confirmed then Idle else SendThenRefetch(DeleteSubtask(taskId), o)
  }

  /** A declined confirmation is indistinguishable from never clicking. */
  lemma DeclinedDeleteSendsNothing(taskId: string, o1: Outcome, o2: Outcome)
    ensures DeleteTask(taskId, false, o1) == DeleteTask(taskId, false, o2)
    ensures DeleteTask(taskId, false, o1).sent.None?
  {
  }

  /** The add-task form; an empty `datetime-local` input is `None`. */
  datatype TaskForm = TaskForm(name: string, deadline: Option<int>, description: string, link: string)

  const BlankTaskForm: TaskForm := TaskForm("", None, "", "")

  /** Name and deadline are `required` inputs: the browser blocks the submit
      while either is empty. */
  predicate Submittable(f: TaskForm) {
    f.name != "" && f.deadline.Some?
  }

  /** The form after a submit attempt, and the alert text if one is shown. */
  datatype AddStep = AddStep(form: TaskForm, formOpen: bool, reaction: Reaction, alert: Option<string>)

  /** `handleAddTask`: posts the form under its parent (`projectId` on the
      project page, `prospectId` on the prospect page). Success closes and
      clears the form and refetches; failure keeps it open and alerts the
      server's message, or `Error adding task`. */
  function AddTask(parentId: string, forProject: bool, f: TaskForm, o: Outcome): (r: AddStep)
    ensures !Submittable(f) ==> r == AddStep(f, true, Idle, None)
    ensures Submittable(f) ==> r.reaction.sent == Some(PostSubtask(parentId, forProject, f.name, f.deadline.value, f.description, f.link))
    ensures Submittable(f) && o.Ok? ==> r.form == BlankTaskForm && !r.formOpen && r.reaction.refetch && r.alert.None?
    ensures Submittable(f) && !o.Ok? ==>
              r.form == f && r.formOpen && !r.reaction.refetch
              && r.alert == Some(MessageOr(o, "Error adding task"))
  {
    if !Submittable(f) then AddStep(f, true, Idle, None)
    else
      var req := PostSubtask(parentId, forProject, f.name, f.deadline.value, f.description, f.link);
      if o.Ok? then AddStep(BlankTaskForm, false, SendThenRefetch(req, o), None)
      else AddStep(f, true, SendThenRefetch(req, o), Some(MessageOr(o, "Error adding task")))
  }

  /** A failed submit leaves a form that can be resubmitted as it is, and it
      sends the same request again; a successful one leaves a blank form
      that cannot be. */
  lemma AddTaskRetry(parentId: string, forProject: bool, f: TaskForm, o1: Outcome, o2: Outcome)
    requires Submittable(f) && !o1.Ok?
    ensures Submittable(AddTask(parentId, forProject, f, o1).form)
    ensures AddTask(parentId, forProject, AddTask(parentId, forProject, f, o1).form, o2).reaction.sent
            == AddTask(parentId, forProject, f, o1).reaction.sent
    ensures !Submittable(AddTask(parentId, forProject, f, Ok).form)
  {
  }

  /** How a subtask card shows one subtask at time `now`. */
  datatype Card = Card(doneIcon: bool, overdue: bool, barSuccess: bool, description: string, href: Option<string>)

  /** The card: done icon and green bar at exactly 100, overdue styling from
      the deadline, `No description` in place of a missing one, and the
      normalised link (the project page shows it; the prospect page does not
      use it). */
  function CardOf(t: Subtask, now: int): (c: Card)
    ensures c.doneIcon <==> Complete(t.progress)
    ensures c.barSuccess == c.doneIcon
    ensures c.overdue <==> IsOverdue(t.deadline, now, t.progress)
    ensures t.description.Some? && t.description.value != "" ==> c.description == t.description.value
    ensures t.description.None? || t.description.value == "" ==> c.description == "No description"
    ensures c.href == Links.Href(t.link)
  {
    var text := if t.description.Some? && t.description.value != "" then t.description.value else "No description";
    Card(t.progress == 100, IsOverdue(t.deadline, now, t.progress), t.progress == 100, text, Links.Href(t.link))
  }

  /** No card is ever both done and overdue, and the done icon goes with the
      `DONE` label. */
  lemma CardNeverDoneAndOverdue(t: Subtask, now: int)
    ensures !(CardOf(t, now).doneIcon && CardOf(t, now).overdue)
    ensures CardOf(t, now).doneIcon <==> LabelOf(t.progress) == DONE
  {
    OverdueNeedsPastAndUnfinished(t.deadline, now, t.progress);
    CompleteIffDone(t.progress);
  }
}

=== FILE: subtask_detail.dfy ===
/** The subtask page: a form loaded from the saved subtask, edited through
    the checkpoint buttons and the deadline input, and saved whole. The
    badges of the page read the saved subtask, the form's label reads the
    form. */
module SubtaskDetail {
  import opened Optional
  import opened Entities
  import opened Remote
  import opened Checkpoints
  import Links

  /** Milliseconds in a minute. */
  const Minute: int := 60_000

  /** `toISOString().slice(0, 16)` keeps the date and time down to the
      minute: the deadline rounded down to a whole minute. */
  function MinuteOf(t: int): (r: int)
    ensures r <= t < r + Minute
    ensures r % Minute == 0
  {
    t - t % Minute
  }

  /** Rounding to the minute is idempotent. */
  lemma MinuteOfIdempotent(t: int)
    ensures MinuteOf(MinuteOf(t)) == MinuteOf(t)
  {
  }

  /** The page's form. It has inputs only for progress (the buttons) and the
      deadline; name, description and link ride along unchanged. The
      deadline input is not `required`, so it can be cleared: `None` is the
      empty string it then holds. */
  datatype Form = Form(name: string, description: string, deadline: Option<int>, progress: int, link: string)

  function OrEmpty(s: Option<string>): (r: string)
    ensures s.Some? ==> r == s.value
    ensures s.None? ==> r == ""
  {
    if s.Some? then s.value else ""
  }

  /** The form as loaded: missing description and link become empty, the
      deadline is cut to the minute, name and progress are copied. */
  function InitForm(s: Subtask): (f: Form)
    ensures f.name == s.name && f.progress == s.progress
    ensures f.description == OrEmpty(s.description) && f.link == OrEmpty(s.link)
    ensures f.deadline.Some?
    ensures f.deadline.value <= s.deadline < f.deadline.value + Minute && f.deadline.value % Minute == 0
  {
    Form(s.name, OrEmpty(s.description), Some(MinuteOf(s.deadline)), s.progress, OrEmpty(s.link))
  }

  /** A checkpoint button sets the form's progress and nothing else. */
  function SelectCheckpoint(f: Form, c: Choice): (r: Form)
    requires c in Choices
    ensures r.progress == c.val && LabelOf(r.progress) == c.checkpoint
    ensures r.name == f.name && r.description == f.description && r.deadline == f.deadline && r.link == f.link
  {
    ChoicesAreCheckpoints();
    f.(progress := c.val)
  }

  /** The deadline input sets the form's deadline and nothing else; clearing
      it (`None`) is accepted like any other edit. */
  function SetDeadline(f: Form, d: Option<int>): (r: Form)
    ensures r.deadline == d
    ensures r.name == f.name && r.description == f.description && r.progress == f.progress && r.link == f.link
  {
    f.(deadline := d)
  }

  /** `handleUpdate`: the whole form is sent, with no check of its fields,
      so a cleared deadline is sent empty; success refetches (and so reloads
      the form), failure alerts. */
  function Submit(subtaskId: string, f: Form, o: Outcome): (r: Reaction)
    ensures r.sent.Some? && r.sent.value.PutSubtaskForm? && r.sent.value.subtaskId == subtaskId
    ensures r.sent == Some(PutSubtaskForm(subtaskId, f.name, f.description, f.deadline, f.progress, f.link))
    ensures f.deadline.None? ==> r.sent.value.formDeadline.None?
    ensures r.refetch <==> o.Ok?
    ensures r.alerted <==> !o.Ok?
  {
    SendThenRefetch(PutSubtaskForm(subtaskId, f.name, f.description, f.deadline, f.progress, f.link), o)
  }

  /** Clearing the deadline and saving sends an empty deadline with the rest
      of the form unchanged; nothing on the page stops it. */
  lemma ClearedDeadlineIsSent(subtaskId: string, f: Form, o: Outcome)
    ensures var r := Submit(subtaskId, SetDeadline(f, None), o);
            r.sent == Some(PutSubtaskForm(subtaskId, f.name, f.description, None, f.progress, f.link))
            && (r.refetch <==> o.Ok?)
  {
  }

  /** The hypothesis a save-and-reload argument needs about the server, which
      is not part of this model: the subtask it returns holds every field of
      the sent form unchanged, the deadline read back as the same instant.
      What the server makes of an empty deadline is not covered. */
  predicate EchoesForm(s: Subtask, subtaskId: string, f: Form) {
    s.id == subtaskId && s.name == f.name && s.description == Some(f.description)
    && f.deadline == Some(s.deadline) && s.progress == f.progress && s.link == Some(f.link)
  }

  /** Under that hypothesis, saving and reloading is stable: a successful
      save refetches, a form whose deadline is already on a minute reloads
      exactly as it was sent, and saving a freshly loaded form unedited
      reloads the same form. */
  lemma SaveReloadRoundTrip(subtaskId: string, f: Form, o: Outcome, fetched: Subtask, s: Subtask, refetched: Subtask)
    requires o.Ok? && f.deadline.Some? && f.deadline.value % Minute == 0 && EchoesForm(fetched, subtaskId, f)
    requires EchoesForm(refetched, s.id, InitForm(s))
    ensures Submit(subtaskId, f, o).refetch
    ensures InitForm(fetched) == f
    ensures InitForm(refetched) == InitForm(s)
  {
  }

  /** Choosing a checkpoint and saving sends the loaded subtask back with
      only the progress changed (and the deadline cut to the minute). */
  lemma ChooseThenSave(s: Subtask, c: Choice, o: Outcome)
    requires c in Choices
    ensures Submit(s.id, SelectCheckpoint(InitForm(s), c), o).sent
            == Some(PutSubtaskForm(s.id, s.name, OrEmpty(s.description), Some(MinuteOf(s.deadline)), c.val, OrEmpty(s.link)))
  {
  }

  /** What the page shows beside the form. */
  datatype Panel = Panel(completedBadge: bool, overdue: bool, formLabel: Checkpoint, formBarSuccess: bool, link: Option<string>)

  /** The `COMPLETED` badge, the `OVERDUE` warning and the link read the
      saved subtask; the label and bar of the form read the form. */
  function PanelOf(saved: Subtask, f: Form, now: int): (v: Panel)
    ensures v.completedBadge <==> Complete(saved.progress)
    ensures v.overdue <==> IsOverdue(saved.deadline, now, saved.progress)
    ensures v.formLabel == LabelOf(f.progress)
    ensures v.formBarSuccess <==> v.formLabel == DONE
    ensures v.link == Links.Href(saved.link)
  {
    CompleteIffDone(f.progress);
    Panel(saved.progress == 100, IsOverdue(saved.deadline, now, saved.progress), LabelOf(f.progress),
          f.progress == 100, Links.Href(saved.link))
  }

  /** Until a save has been refetched, edits to the form move only the form's
      label: the badge and the warning stay those of the saved subtask. */
  lemma BadgesIgnoreForm(saved: Subtask, f1: Form, f2: Form, now: int)
    ensures PanelOf(saved, f1, now).completedBadge == PanelOf(saved, f2, now).completedBadge
    ensures PanelOf(saved, f1, now).overdue == PanelOf(saved, f2, now).overdue
    ensures PanelOf(saved, f1, now).link == PanelOf(saved, f2, now).link
  {
  }

  /** Selecting `DONE` on an overdue subtask: the form reads `DONE` while the
      page still warns `OVERDUE` and shows no `COMPLETED` badge. */
  lemma DoneSelectedStillOverdue(saved: Subtask, now: int)
    requires saved.deadline < now && saved.progress == 50
    ensures var f := SelectCheckpoint(InitForm(saved), Choice(DONE, 100));
            PanelOf(saved, f, now).formLabel == DONE
            && PanelOf(saved, f, now).overdue
            && !PanelOf(saved, f, now).completedBadge
  {
  }

  /** "Back to Project": the project page of the route's project id, which
      is read back from the path as it was given. */
  function BackPath(projectId: string): (r: string)
    ensures Links.StartsWith(r, "/projects/") && r[|"/projects/"|..] == projectId
  {
    "/projects/" + projectId
  }
}
